=== FILE: README.md ===
# Backup orchestration core of rethinkdb-backup, modelled in Dafny

The service watches the `document` table of a RethinkDB database. When a
document is added, or an update makes a document public, it asks for a dump of
the database. Requests are coalesced by a single-flight scheduler: the first
request arms one timer, and later requests are dropped until the run is over.
When the timer expires, the callback runs `rethinkdb dump` into an archive
named `DB_NAME_dump_DATETIME.tar.gz`. In `backup.js` it then asks an rclone
remote-control service to sync `SYNC_SRC` to `SYNC_DST`. An HTTP front end
offers a manual trigger route, guarded by an optional API key, and serves
the archives by file name.

The repository holds three versions of the core, and the model covers all
three:

- `backup.js` (variant `Swallowing`): `dump` and `sync` catch their
  failures, so the scheduler's reset is reached whenever the archive name
  can be formatted.
- `db.js` and `dump.js` (variant `Rethrowing`): `dump` rethrows. A failed
  dump skips the reset. If the process survives the unhandled rejection,
  the scheduler stays scheduled for good.

Modules, one per concern:

- `JsValues` (js_values.dfy): `Option`, `Outcome` (normal result or throw,
  which is also a fulfilled or rejected promise), JavaScript values, and
  lodash `_.defaults`.
- `Config` (config.dfy): `env`, the settings table and its defaults, and
  `DUMP_DELAY_MS`.
- `Naming` (naming.dfy): the archive name, its public location, and the
  index.js routes built from the same `DUMP_PATH`.
- `Rclone` (sync.dfy): `checkHTTPStatus`, the `sync` body and URL, and
  failure containment.
- `Dump` (dump.dfy): both `dump` variants, the timer callback pipeline, and
  the direct `backup(0)` run.
- `Scheduler` (scheduler.dfy): the state machine over the events
  `Request(now, delay)`, `Fire(now)` and `Complete(...)`, lemmas over event
  sequences, and `backup` dispatch.
- `Trigger` (trigger.dfy): the ReQL filter, `addChangesFeed` option
  defaulting, and the feed-to-scheduler wiring.
- `Server` (server.dfy): `checkApiKey`, the manual trigger route, and file
  serving.

The scheduler state is the source's `dumpScheduled`/`dumpTime` pair. Two
hidden parts are made explicit next to it: the armed timers (when each was
set and with which delay) and the number of timer callbacks still running.
A timer is due after the delay Node actually waits: a delay below 1 ms or
above 2147483647 ms is replaced by 1 ms. With these in the state,
"at most one run in flight" is an invariant the model proves, not an
assumption. Time is in integer milliseconds. A callback's awaits are one
`Complete` event, whose inputs are the formatted time, the result of the dump
command and the result of the sync request.

The ReQL filter is evaluated in three values: a boolean, or an evaluation
error. An error comes from reading a field of a null document or a missing
field, and a row on which the predicate errors is skipped. `and` stops at its
first false operand and `or` at its first true one. Documents are reduced to
their optional `status` field.

Some behaviour of the code is easy to misread. The model follows the code:

- In `backup.js` the sync runs even after a failed dump, because `dump`
  resolves `undefined` instead of rejecting (`Dump.SwallowingContainsFailures`).
- `backup(0)` never consults the single-flight flag. A manual trigger dumps
  even while a delayed dump is pending (`Scheduler.ZeroDelayBypassesGate`).
- An update that keeps a document public does not trigger. Only a change
  INTO "public" triggers (`Trigger.FilterCases`). No document is excluded as
  demo data.
- The manual route answers 202 only after the whole dump and sync have
  finished, not when scheduling returns (`Server.ManualTrigger`).
- In `backup.js` the archive name is formatted before the `try`. A throwing
  `format` therefore rejects `dump`, and the callback skips the reset as in
  the other variants. `Scheduler.SwallowingNeverSticks` assumes a format that
  does not throw.
- `cursor.each` handlers ignore their arguments, so a cursor error also
  triggers a request (`Trigger.FeedItem`).
- A delay above 2147483647 ms (a `DUMP_DELAY_HOURS` above about 596.5) is run
  by `setTimeout` after 1 ms. The dump then starts long before the
  `dumpTime` that was announced (`Scheduler.LongDelayFiresEarly`).
- A request whose deadline `now + delay` lies beyond the Date range of
  ±8.64e15 ms makes `formatDistance` throw in the log line, before the flag
  is set. The request rejects and nothing is scheduled
  (`Scheduler.DeadlinePastDateRangeArmsNothing`).
- On a failed command `backup(0)` fulfils with `undefined`, and a delayed
  `backup` with `null`. The model writes both as `Ok(None)`.

## Model

| member | source | states |
|---|---|---|
| JsValues.Defaults | backup.js:53-56 | `_.defaults` keeps every key the object defines, copies source keys that are missing or `undefined`, and the keys are the union |
| JsValues.DefaultsAll | backup.js:53-56 | with several sources: the object's defined values survive, and the keys are the object's plus every source's |
| JsValues.DefaultsIdempotent | backup.js:53-56 | filling the same defaults a second time changes nothing |
| JsValues.DefaultsOfDefinedIsIdentity | db.js:82 | when the caller already defines every defaulted key, the options are returned as given |
| JsValues.FirstSourceWins | backup.js:53-56 | among several sources, the first one that defines a key supplies it. Earlier sources that lack the key or hold `undefined` do not count, and later ones cannot override it |
| JsValues.NoSourceDefines | backup.js:53-56 | a key that neither the object nor any source defines stays undefined |
| Config.Env | config.js:3-18 | absent key gives the default; present key gives `parseInt` for integer defaults, `JSON.parse` (the only way to throw) for boolean defaults, and the raw string otherwise, an empty string included |
| Config.Read | config.js:3-18 | for a non-boolean default the lookup cannot throw, whatever `JSON.parse` does |
| Config.Load | config.js:21-34 | loading never throws; with no environment every setting is its default (`DUMP_PATH` "archives/", `API_KEY` "", the date format, 0.05 hours); `DUMP_DELAY_HOURS` from the environment stays a string because 0.05 is not an integer |
| Config.EmptyValueCountsAsSet | config.js:4 | an empty `DUMP_PATH` in the environment replaces the default instead of falling back to it |
| Config.DumpDelayMs | backup.js:29-32 | `DUMP_DELAY_MS` is hours × 3 600 000 over the reals |
| Config.DumpDelayRoundTrip | db.js:21-24 | the hours are recovered from the delay; the default 0.05 h is 180000 ms |
| Naming.DumpFileName | backup.js:92 | the archive name starts with `DB_NAME` and `_dump_`, ends with `.tar.gz`, and holds the formatted time in between |
| Naming.Location | backup.js:95 | the location is `/`, then `DUMP_PATH`, then the file name |
| Naming.TriggerPath | index.js:32 | the trigger route is the location an archive named `dump` would have, so it shadows that file |
| Naming.DateTimeOf | backup.js:91-92 | a name it accepts is exactly `DB_NAME + "_dump_" + DATETIME + ".tar.gz"` for the time it returns |
| Naming.DateTimeOfDumpFileName | backup.js:91-92 | stripping the fixed prefix and suffix recovers DATETIME from the archive name |
| Naming.DumpFileNameInjective | db.js:29-30 | different formatted times never give the same archive name |
| Naming.FileNameOf | backup.js:95 | a location it accepts is `"/" + DUMP_PATH + FILENAME` for the name it returns |
| Naming.FileNameOfLocation | dump.js:42 | the file name is recovered from the location `"/" + DUMP_PATH + FILENAME` |
| Naming.MatchRoute | index.js:32-36 | `/${DUMP_PATH}dump` reaches the trigger route; other paths under the prefix with one non-empty segment reach the file route with that segment; everything else reaches neither |
| Naming.DumpLocationIsServed | index.js:36 | when neither `DB_NAME` nor the formatted time contains `/`, the location a dump reports reaches the file route with the archive's own name, never the trigger route |
| Rclone.CheckHttpStatus | backup.js:39-45 | the response unchanged iff `ok`, otherwise a throw with message `statusText (status)` |
| Rclone.SyncBody | backup.js:52-56 | the body keeps every key the caller defined and fills `srcFs`, `dstFs` from the settings and `_async: true` only where absent |
| Rclone.SyncUrl | backup.js:57 | the URL starts with `http://` and the host, then a colon; it ends with `/sync/` and the mode |
| Rclone.ParseSyncUrl | backup.js:57 | a URL it accepts is `http://HOST:PORT/sync/MODE` for the parts it returns |
| Rclone.ParseSyncUrlRoundTrip | backup.js:57 | host, port and mode are recovered from the sync URL (host without `:`, port without `/`) |
| Rclone.Sync | backup.js:52-78 | `sync` always fulfils with `undefined`; it reports success iff the response is ok and its JSON was read; network and status failures are reported, not thrown |
| Dump.DumpLocation | backup.js:91-95 | the reported location names the archive the command writes, and the time is recoverable from it |
| Dump.DumpSwallowing | backup.js:90-106 | `dump` of backup.js fulfils whenever the name could be formatted, with a location iff the command succeeded |
| Dump.DumpRethrowing | db.js:28-45 | `dump` of db.js fulfils iff the name was formatted and the command succeeded, with the location; otherwise it rejects with the format error or the command's error |
| Dump.DumpVariantsAgree | dump.js:37-54 | both variants report the same location on success; on a failed command one fulfils empty, the other rejects |
| Dump.TimerCallback | backup.js:123-128 | backup.js calls `sync` after every formatted dump, failed or not, and settles fulfilled; db.js/dump.js never sync and settle fulfilled iff the dump succeeded |
| Dump.DirectBackup | backup.js:141-143 | `backup(0)` syncs after the dump and returns the location iff the command succeeded |
| Dump.SwallowingContainsFailures | backup.js:97-105 | in backup.js neither a failed dump nor a failed sync rejects the pipeline, and the sync runs in both the direct and the scheduled path |
| Scheduler.TimerDelay | backup.js:123-128 | the delay `setTimeout` waits is between 1 and 2147483647 ms, and equals the requested delay exactly when that is in this range |
| Scheduler.Step | backup.js:111-130 | a request while scheduled changes nothing; from idle, a request whose `now + delay` is no valid Date (beyond ±8.64e15 ms) throws and changes nothing, and any other request sets the flag and arms one timer; a timer starts a callback only when due; only a fulfilled callback clears the flag |
| Scheduler.Run | db.js:50-70 | one effect per event |
| Scheduler.StepPreservesInv | db.js:50-70 | one event keeps the single-flight invariant: at most one timer armed or callback running, the flag set while one is, and `dumpTime` the armed timer's requested deadline |
| Scheduler.RunPreservesInv | backup.js:108-130 | every sequence of events keeps the single-flight invariant |
| Scheduler.FiresNoEarlierThanDumpTime | backup.js:119-123 | a callback never starts in the millisecond of its request. It never starts before the recorded `dumpTime` when the requested delay is at most 2147483647 ms |
| Scheduler.LongDelayFiresEarly | backup.js:119-128 | a request with a delay of 2147483648 ms at time 0 announces that `dumpTime`, yet its dump starts at 1 ms |
| Scheduler.RequestsWhileScheduled | dump.js:63-64 | while the flag is set, any number of requests leave the state unchanged and arm nothing |
| Scheduler.BurstCoalesces | dump.js:66-70 | a burst of requests from idle whose first deadline is a valid Date arms exactly one timer: the first request sets it, and it is due after `setTimeout`'s delay. The other requests are dropped |
| Scheduler.OutOfRangeRequestRejected | backup.js:118-121 | from idle, a request whose deadline is no valid Date is rejected before the flag is set, so the next event acts on the unchanged state |
| Scheduler.DeadlinePastDateRangeArmsNothing | db.js:59-61 | a request at the epoch with a delay of 9e15 ms arms nothing and leaves the state initial, while one with 8.64e15 ms arms a timer |
| Scheduler.SwallowingAlwaysResets | backup.js:123-128 | in backup.js, when the archive name was formatted, a completed callback returns the state to (false, null) whatever the dump and sync did |
| Scheduler.RethrowingFailureSticks | db.js:63-67 | in db.js a failed dump leaves the flag set with no timer and no callback |
| Scheduler.RethrowingSuccessResets | dump.js:72-76 | in dump.js a successful dump returns the state to (false, null) |
| Scheduler.StuckIsForever | db.js:54-56 | once stuck, every later event leaves the state unchanged and no dump ever runs again |
| Scheduler.SwallowingNeverSticks | backup.js:111-130 | backup.js never reaches the stuck state while the date format works |
| Scheduler.RunAccounting | backup.js:115-128 | over any run, timers armed = callbacks started + timers still armed, and callbacks started = callbacks finished + callbacks running |
| Scheduler.SingleFlight | backup.js:115-128 | from the initial state, armed timers exceed started callbacks by at most one, and started callbacks exceed finished ones by at most one |
| Scheduler.FullCycle | backup.js:111-130 | burst (its first deadline a valid Date), expiry when `setTimeout` first may run the timer, requests during the run, completion: one timer, one dump, then back to (false, null) whenever the archive name was formatted, for backup.js whatever the command did and for db.js/dump.js on success |
| Scheduler.OneRunForTwoTriggers | dump.js:59-79 | delay 1000 ms, triggers at 0 and 500: the first arms a timer due at 1000, the second is dropped, the dump starts at 1000 and its settlement resets the state |
| Scheduler.Backup | backup.js:139-148 | delay 0 dumps directly and leaves the flag alone. Once the name is formatted it always syncs and fulfils, with the location or, on a failed command, `undefined` (the model's `Ok(None)`); a format error rejects without syncing. Any other delay is `scheduleDump` and returns null, or rejects with date-fns' `RangeError` when the deadline is no valid Date |
| Scheduler.ZeroDelayBypassesGate | backup.js:141-146 | while a dump is scheduled, `backup(0)` still dumps where a delayed request is dropped |
| Trigger.AddedItem | db.js:93 | the `type` test errors on a record without `type`, and is true exactly for `add` |
| Trigger.ToPublicStatus | db.js:92 | true iff the new status is "public" and an old status is present and is not "public". It errors when the new status is missing, or when it is "public" and the old status is missing |
| Trigger.DocFilter | backup.js:156-159 | `or` short-circuits: true iff an add, or typed and not an add with the status test true; it errors when `type` is missing, or when the record is not an add and the status test errors |
| Trigger.QualifiesOnCompleteRecords | db.js:92-94 | on records with every field, the filter is `type == 'add' OR (new.status == 'public' AND old.status != 'public')` |
| Trigger.QualifiesCharacterised | backup.js:156-159 | on any record: passes iff an add, or typed with a new status "public" and an old status present and not "public" |
| Trigger.FilterCases | dump.js:87-90 | adds pass; removals, untyped records and updates of an already-public document do not; draft to public passes, draft to draft does not |
| Trigger.ChangesOptions | db.js:82 | `includeTypes` is true unless the caller defined it; every other option is kept, and no key but `includeTypes` is added |
| Trigger.IncludeTypesMatters | db.js:82-87 | with the default, adds reach the handler; with `includeTypes: false` nothing passes the filter |
| Trigger.HandlerTimes | db.js:89 | at most one handler run per arrival |
| Trigger.HandlerTimesPerArrival | db.js:89 | the handler runs correspond one to one, in order, to the arrivals that reach the handler, each at its arrival time, so two changes in the same millisecond give two runs |
| Trigger.HandlerTimesAppend | dump.js:93 | the handler runs of two stretches of the feed are those of each, in order |
| Trigger.HandlerTimesExact | db.js:89 | the handler runs exactly at the arrival times of items that pass the filter (or are cursor errors) |
| Trigger.DumpRequests | db.js:96 | each handler run is one `requestDump(DUMP_DELAY_MS)` at that time |
| Trigger.FeedBurstArmsOnce | dump.js:92-93 | a burst of qualifying changes arms one timer when the first handler run's deadline is a valid Date: that run sets it, and the rest are dropped |
| Trigger.BackupFeed | backup.js:161-162 | with delay 0 every handler run is a direct dump and syncs with its own outcomes, and the scheduler is untouched; with a delay no direct run happens |
| Trigger.BackupFeedIsRequests | backup.js:162 | with a non-zero delay the backup.js feed drives the scheduler exactly like one request per qualifying change |
| Server.CheckApiKey | index.js:20-26 | an empty `API_KEY` always passes; otherwise the request passes iff its `apiKey` converts to the key, and any other request gets 401 "Unauthorized" |
| Server.SingletonListPasses | index.js:21 | `?apiKey[]=KEY` passes like `?apiKey=KEY`, by JavaScript's loose equality |
| Server.ManualTrigger | index.js:32-34 | unauthorised requests get 401 and no dump; authorised ones run exactly `backup()` with delay 0 (dump, then sync) without touching the scheduler, get 202 once it fulfils, and have its rejection handed to `next` |
| Server.ServeFile | index.js:36-46 | a name with a `/`-separated segment of two or more characters that starts with a dot is refused. "." and the empty name are the directory itself and are not sent. Any other name is that path under the dump directory |
| Server.PlainNameRefusal | index.js:40 | for a name without `/`, it is refused iff it has two or more characters and starts with a dot |
| Server.DotFileAfterSlashRefused | index.js:40 | a dotfile segment after an encoded slash, as in `a/.b`, is refused too |
| Server.PublishedDumpIsServed | index.js:36-40 | when neither `DB_NAME` nor the formatted time contains `/` and `DB_NAME` does not start with a dot, requesting a dump's reported location returns the very archive the dump command wrote. A date format with `/` puts extra segments into the location, which the file route never matches |

## Left out

- Running `rethinkdb dump` (`child_process.exec`): a dump is an abstract `ExecResult`. The command text is not modelled beyond the file name it writes.
- The HTTP request to rclone (`node-fetch`): a response is an abstract `{ok, status, statusText}` with an already settled `res.json()`. JSON decoding, `JSON.stringify` of the body, and its dropping of `undefined` values are not modelled.
- date-fns `format`, `formatDistance` and `addMilliseconds`: the formatted time is an input, and format errors are an `Err`. Of `formatDistance`'s errors only the Invalid Date one is modelled, as `Rejected`. The truncation of a fractional delay to whole milliseconds is not modelled. The scheduler takes integer delays.
- A timer may fire at any time at or after it is due. Node's ordering of timers that are due together is not modelled.
- Event-loop interleavings beyond explicit `Request`/`Fire`/`Complete` events. The check-and-set in the scheduler has no suspension point, so it is one step.
- Logging, `serve-index`, `serve-favicon`, the `sendFile` I/O, `app.listen` and the start-up promise chain.
- The RethinkDB connection, `db.accessTable`/`loadTable`, and cursor iteration: the feed is a sequence of arrivals.
- `parseInt` and `JSON.parse`: they are uninterpreted function parameters.
- The coercion of a `DUMP_DELAY_HOURS` string by `*`: `DumpDelayMs` works on reals only.
- The `SYNC_*` settings: they are unresolved imports, so they are an opaque `SyncConfig`.
- Floating point: the delay conversion is over the reals.
- `_.defaults` mutating the caller's object: the model returns a new map. In the code, `sync` is always called without options.
- `requestDump`'s default delay of 0: every caller passes `DUMP_DELAY_MS`, so a request always carries an explicit delay.
- Concurrent direct `backup(0)` runs: they never touch the scheduler state and are not tracked in it.
- Express path matching details (case-insensitivity, an optional trailing slash, percent-decoding): routes match by exact prefix and segment.
- Scheduler.Step: a request while the flag is set is dropped whatever `now` is. The source's log line would throw there too if `now` were no valid Date, which a clock reading from `new Date()` never is.
- Scheduler.Step: with several timers armed it fires the earliest-armed one first. This ordering is never exercised, because the invariant allows at most one armed timer.
- Scheduler.StuckIsForever: the model assumes the process survives the callback's rejected promise. Nothing handles that rejection (db.js:63-67, dump.js:72-76). Node 15 and later end the process on an unhandled rejection by default; the scheduler state is then lost rather than stuck.
- Server.ServeFile: a missing file, and the other errors of `sendFile`, are file-system I/O and are not modelled. For names holding an encoded `/`, `send`'s normalisation of `.` and `..` segments before its dotfile test, and its index lookup after a trailing `/`, are not modelled either.

## Findings

| source | as written | input that shows it | evidently intended | confidence | as-written member | corrected member |
|---|---|---|---|---|---|---|
| db.js:63-67 | the timer callback awaits a rethrowing `dump()` before `dumpScheduled = false`, so a failed dump leaves the flag set with no timer armed (dump.js:72-76 is identical). If the process survives the unhandled rejection, no dump ever runs again | one `rethinkdb dump` failure (`ExecFailed`) after the timer fires | reset after every run, as backup.js achieves by swallowing the dump error | not executed; high | Scheduler.RethrowingFailureSticks | Scheduler.SwallowingNeverSticks |

=== FILE: config.dfy ===
/**
 Configuration (config.js): every setting is read from the process
 environment through `env`, which converts the raw string according to the
 type of the setting's default value.
 */
module Config {
  import opened JsValues

  /** lodash `_.isInteger`: a number without a fractional part. */
  predicate IsInteger(v: JsValue) {
    v.Num? && v.n == v.n.Floor as real
  }

  /** `env(key, defaultVal)`. `environ` is `process.env`; `parseInt` and
      `JSON.parse` are left uninterpreted and passed in. A key that is present
      counts even when its value is the empty string, since the test is `!= null`. */
  function Env(environ: map<string, string>, key: string, default: JsValue,
               parseInt: string -> JsValue, jsonParse: string -> Outcome<JsValue>): (r: Outcome<JsValue>)
    ensures key !in environ ==> r == Ok(default)
    ensures r.Err? ==> key in environ && default.Bool? && r == jsonParse(environ[key])
    ensures key in environ && default.Bool? ==> r == jsonParse(environ[key])
    ensures key in environ && IsInteger(default) ==> r == Ok(parseInt(environ[key]))
    ensures key in environ && !IsInteger(default) && !default.Bool? ==> r == Ok(Str(environ[key]))
  {
    if key in environ then
      var val := environ[key];
      if IsInteger(default) then Ok(parseInt(val))
      else if default.Bool? then jsonParse(val)
      else Ok(Str(val))
    else Ok(default)
  }

  /** The exported settings of config.js. */
  datatype Settings = Settings(
    nodeEnv: JsValue,
    baseUrl: JsValue,
    port: JsValue,
    logLevel: JsValue,
    dumpDirectory: JsValue,
    dumpPath: JsValue,
    apiKey: JsValue,
    dbHost: JsValue,
    dbPort: JsValue,
    dbName: JsValue,
    dumpDateFormat: JsValue,
    dumpDelayHours: JsValue)

  const DefaultDumpPath: string := "archives/"
  const DefaultApiKey: string := ""
  const DefaultDumpDateFormat: string := "yyyy-MM-dd_HH-mm-ss-SSS"
  const DefaultDumpDelayHours: real := 0.05

  /** The settings when no environment variable is set. */
  const DefaultSettings: Settings := Settings(
    Undefined, Str("http://localhost"), Num(3000.0), Str("info"),
    Str("archives"), Str(DefaultDumpPath), Str(DefaultApiKey),
    Str("localhost"), Num(28015.0), Str("factoid"),
    Str(DefaultDumpDateFormat), Num(DefaultDumpDelayHours))

  /** `env` for a default that is not a boolean: `JSON.parse` is never reached,
      so the lookup cannot throw. */
  function Read(environ: map<string, string>, key: string, default: JsValue,
                parseInt: string -> JsValue): (v: JsValue)
    requires !default.Bool?
    ensures forall jsonParse :: Env(environ, key, default, parseInt, jsonParse) == Ok(v)
  {
    if key in environ then
      if IsInteger(default) then parseInt(environ[key]) else Str(environ[key])
    else default
  }

  /** Loading the module: each exported setting through `env`. No default is a
      boolean, so the load never throws; with an empty environment every
      setting is its default. */
  function Load(environ: map<string, string>, parseInt: string -> JsValue): (r: Settings)
    ensures environ == map[] ==> r == DefaultSettings
    ensures "DUMP_DELAY_HOURS" in environ ==> r.dumpDelayHours == Str(environ["DUMP_DELAY_HOURS"])
    ensures "API_KEY" in environ ==> r.apiKey == Str(environ["API_KEY"])
    ensures "DUMP_PATH" in environ ==> r.dumpPath == Str(environ["DUMP_PATH"])
    ensures "PORT" in environ ==> r.port == parseInt(environ["PORT"])
    ensures "DB_PORT" in environ ==> r.dbPort == parseInt(environ["DB_PORT"])
  {
    var d := DefaultSettings;
    Settings(
      Read(environ, "NODE_ENV", d.nodeEnv, parseInt),
      Read(environ, "BASE_URL", d.baseUrl, parseInt),
      Read(environ, "PORT", d.port, parseInt),
      Read(environ, "LOG_LEVEL", d.logLevel, parseInt),
      Read(environ, "DUMP_DIRECTORY", d.dumpDirectory, parseInt),
      Read(environ, "DUMP_PATH", d.dumpPath, parseInt),
      Read(environ, "API_KEY", d.apiKey, parseInt),
      Read(environ, "DB_HOST", d.dbHost, parseInt),
      Read(environ, "DB_PORT", d.dbPort, parseInt),
      Read(environ, "DB_NAME", d.dbName, parseInt),
      Read(environ, "DUMP_DATE_FORMAT", d.dumpDateFormat, parseInt),
      Read(environ, "DUMP_DELAY_HOURS", d.dumpDelayHours, parseInt))
  }

  /** An empty value still counts as set: an empty `DUMP_PATH` replaces
      "archives/" instead of falling back to it. */
  lemma EmptyValueCountsAsSet(environ: map<string, string>, parseInt: string -> JsValue)
    requires "DUMP_PATH" in environ && environ["DUMP_PATH"] == ""
    ensures Load(environ, parseInt).dumpPath == Str("")
    ensures Load(environ, parseInt).dumpPath != DefaultSettings.dumpPath
  {
  }

  const MsPerSecond: int := 1000
  const MinutesPerHour: int := 60
  const SecondsPerMinute: int := 60

  /** `DUMP_DELAY_MS` computed from `DUMP_DELAY_HOURS`, over the reals. */
  function DumpDelayMs(hours: real): (ms: real)
    ensures ms == hours * 3600000.0
    ensures hours >= 0.0 ==> ms >= hours
  {
    hours * MinutesPerHour as real * SecondsPerMinute as real * MsPerSecond as real
  }

  /** Hours again from a delay in milliseconds. */
  function DelayHours(ms: real): real {
    ms / 3600000.0
  }

  /** The conversion loses nothing: the hours are recovered from the delay, and
      the default of 0.05 hours is 180000 ms (three minutes). */
  lemma DumpDelayRoundTrip(hours: real)
    ensures DelayHours(DumpDelayMs(hours)) == hours
    ensures DumpDelayMs(DefaultDumpDelayHours) == 180000.0
  {
  }
}

=== FILE: dump.dfy ===
/**
 The dump step and the pipelines built on it. backup.js catches a failed
 dump command and resolves with no location; db.js and dump.js log it and
 rethrow. The timer callback of the scheduler runs the dump (and, in
 backup.js, then `sync`); `backup(0)` runs the same two steps directly.
 */
module Dump {
  import opened JsValues
  import opened Naming
  import opened Rclone

  /** How the `rethinkdb dump` shell command ended. Running it is not modelled. */
  datatype ExecResult = ExecOk(stdout: string) | ExecFailed(error: string)

  /** The settings a dump reads: `DB_NAME`, `DUMP_PATH`, `DUMP_DIRECTORY`. */
  datatype DumpConfig = DumpConfig(dbName: string, dumpPath: string, dumpDirectory: string)

  /** The archive the command is told to write: `--file FILENAME`, run inside
      the dump folder (the service directory joined with `DUMP_DIRECTORY`). */
  datatype Artifact = Artifact(directory: string, fileName: string)

  function DumpTarget(cfg: DumpConfig, dateTime: string): Artifact {
    Artifact(cfg.dumpDirectory, DumpFileName(cfg.dbName, dateTime))
  }

  /** The location a successful dump reports. */
  function DumpLocation(cfg: DumpConfig, dateTime: string): (loc: string)
    ensures FileNameOf(cfg.dumpPath, loc) == Some(DumpTarget(cfg, dateTime).fileName)
    ensures DateTimeOf(cfg.dbName, FileNameOf(cfg.dumpPath, loc).value) == Some(dateTime)
  {
    var fileName := DumpFileName(cfg.dbName, dateTime);
    FileNameOfLocation(cfg.dumpPath, fileName);
    DateTimeOfDumpFileName(cfg.dbName, dateTime);
    Location(cfg.dumpPath, fileName)
  }

  /** `dump` of backup.js. `stamp` is how `format(new Date(), DUMP_DATE_FORMAT)`
      ended; it runs before the `try`, so a formatting error rejects the
      promise. A failed command is caught: the promise fulfils with no location. */
  function DumpSwallowing(cfg: DumpConfig, stamp: Outcome<string>, exec: ExecResult): (r: Outcome<Option<string>>)
    ensures r.Ok? <==> stamp.Ok?
    ensures r.Ok? ==> (r.value.Some? <==> exec.ExecOk?)
    ensures r.Ok? && r.value.Some? ==> r.value.value == DumpLocation(cfg, stamp.value)
  {
    match stamp
    case Err(e) => Err(e)
    case Ok(dateTime) =>
      match exec
      case ExecOk(_) => Ok(Some(DumpLocation(cfg, dateTime)))
      case ExecFailed(_) => Ok(None)
  }

  /** `dump` of db.js and dump.js: a failed command is logged and rethrown. */
  function DumpRethrowing(cfg: DumpConfig, stamp: Outcome<string>, exec: ExecResult): (r: Outcome<string>)
    ensures r.Ok? <==> stamp.Ok? && exec.ExecOk?
    ensures r.Ok? ==> r.value == DumpLocation(cfg, stamp.value)
    ensures stamp.Ok? && exec.ExecFailed? ==> r == Err(exec.error)
  {
    match stamp
    case Err(e) => Err(e)
    case Ok(dateTime) =>
      match exec
      case ExecOk(_) => Ok(DumpLocation(cfg, dateTime))
      case ExecFailed(e) => Err(e)
  }

  /** The two variants report the same location whenever the command
      succeeds, and differ only in how a failed command settles the promise. */
  lemma DumpVariantsAgree(cfg: DumpConfig, stamp: Outcome<string>, exec: ExecResult)
    ensures forall loc :: DumpRethrowing(cfg, stamp, exec) == Ok(loc) <==> DumpSwallowing(cfg, stamp, exec) == Ok(Some(loc))
    ensures stamp.Ok? && exec.ExecFailed? ==>
      DumpSwallowing(cfg, stamp, exec) == Ok(None) && DumpRethrowing(cfg, stamp, exec).Err?
  {
  }

  /** The scheduler of backup.js, or the one of db.js and dump.js. */
  datatype Variant = Swallowing | Rethrowing

  /** What one run of the timer callback did: the dump's settlement (a
      location, none, or a rejection), the `sync` call if one was made, and how
      the callback's own promise settled. */
  datatype CallbackRun = CallbackRun(dump: Outcome<Option<string>>, sync: Option<SyncCall>, settled: Outcome<JsValue>)

  /** The timer callback up to the point where the scheduler state would be
      cleared: backup.js awaits `dump()` then `next()` (which is `sync`
      called with no options); db.js and dump.js await `dump()` only. A
      rejection anywhere ends the callback before the reset. */
  function TimerCallback(v: Variant, cfg: DumpConfig, syncCfg: SyncConfig,
                         stamp: Outcome<string>, exec: ExecResult, fetched: FetchResult): (run: CallbackRun)
    ensures run.settled.Ok? <==> stamp.Ok? && (v.Swallowing? || exec.ExecOk?)
    ensures v.Swallowing? ==> (run.sync.Some? <==> stamp.Ok?)
    ensures v.Rethrowing? ==> run.sync.None?
    ensures run.sync.Some? ==> run.sync.value.body == SyncBody(syncCfg, map[])
    ensures run.dump.Ok? && run.dump.value.Some? ==> exec.ExecOk?
  {
    match v
    case Swallowing =>
      var d := DumpSwallowing(cfg, stamp, exec);
      if d.Err? then CallbackRun(d, None, Err(d.error))
      else
        var s := Sync(syncCfg, map[], fetched);
        CallbackRun(d, Some(s), s.result)
    case Rethrowing =>
      var d := DumpRethrowing(cfg, stamp, exec);
      match d
      case Err(e) => CallbackRun(Err(e), None, Err(e))
      case Ok(loc) => CallbackRun(Ok(Some(loc)), None, Ok(Undefined))
  }

  /** `backup(0)` of backup.js: `dump()` then `sync()`, and the promise fulfils
      with the dump's location (none when the command failed). */
  datatype DirectRun = DirectRun(location: Outcome<Option<string>>, sync: Option<SyncCall>)

  function DirectBackup(cfg: DumpConfig, syncCfg: SyncConfig,
                        stamp: Outcome<string>, exec: ExecResult, fetched: FetchResult): (r: DirectRun)
    ensures r.location.Ok? <==> stamp.Ok?
    ensures r.sync.Some? <==> stamp.Ok?
    ensures stamp.Ok? ==> (r.location.value.Some? <==> exec.ExecOk?)
    ensures stamp.Ok? && exec.ExecOk? ==> r.location.value.value == DumpLocation(cfg, stamp.value)
  {
    var d := DumpSwallowing(cfg, stamp, exec);
    if d.Err? then DirectRun(d, None)
    else DirectRun(d, Some(Sync(syncCfg, map[], fetched)))
  }

  /** The containment of backup.js: once the archive name could be formatted,
      a failed dump does not stop the sync, and neither the dump nor the sync
      can reject the pipeline. */
  lemma SwallowingContainsFailures(cfg: DumpConfig, syncCfg: SyncConfig, dateTime: string,
                                   exec: ExecResult, fetched: FetchResult)
    ensures TimerCallback(Swallowing, cfg, syncCfg, Ok(dateTime), exec, fetched).settled == Ok(Undefined)
    ensures TimerCallback(Swallowing, cfg, syncCfg, Ok(dateTime), exec, fetched).sync
         == Some(Sync(syncCfg, map[], fetched))
    ensures DirectBackup(cfg, syncCfg, Ok(dateTime), exec, fetched).sync
         == TimerCallback(Swallowing, cfg, syncCfg, Ok(dateTime), exec, fetched).sync
  {
  }
}

=== FILE: js_values.dfy ===
/**
 JavaScript values as the backup service sees them: the optional-value and
 completion datatypes used throughout the model, plain JSON-like values, and
 lodash's `_.defaults`, which the service uses to fill in request options.
 */
module JsValues {

  /** A value that may be absent (`undefined`/`null` on the JavaScript side). */
  datatype Option<+T> = None | Some(value: T)

  /** How a JavaScript computation ends: normally with a value, or by throwing
      (for a promise: fulfilled or rejected). */
  datatype Outcome<+T> = Ok(value: T) | Err(error: string)

  /** The JavaScript values that occur in configuration and request bodies.
      `NaN` stands for the result of a failed numeric parse. */
  datatype JsValue = Undefined | Null | Bool(b: bool) | Num(n: real) | NaN | Str(s: string)

  /** A plain object with own enumerable properties. */
  type JsObject = map<string, JsValue>

  /** `object[key]` is neither missing nor `undefined`: the test `_.defaults` makes. */
  predicate Defined(obj: JsObject, key: string) {
    key in obj && obj[key] != Undefined
  }

  /** lodash `_.defaults(object, source)`: every key of `source` whose value in
      `object` is missing or `undefined` is copied; all other keys of `object`
      keep their values. */
  function Defaults(obj: JsObject, source: JsObject): (r: JsObject)
    ensures r.Keys == obj.Keys + source.Keys
    ensures forall k :: Defined(obj, k) ==> r[k] == obj[k]
    ensures forall k :: k in source && !Defined(obj, k) ==> r[k] == source[k]
    ensures forall k :: k in obj && k !in source ==> r[k] == obj[k]
  {
    map k | k in obj.Keys + source.Keys :: if k in source && !Defined(obj, k) then source[k] else obj[k]
  }

  /** Every key that some object of `objs` has. */
  function KeysOf(objs: seq<JsObject>): set<string>
    decreases |objs|
  {
    if |objs| == 0 then {} else objs[0].Keys + KeysOf(objs[1..])
  }

  /** lodash `_.defaults(object, ...sources)`: the sources are applied left to right. */
  function DefaultsAll(obj: JsObject, sources: seq<JsObject>): (r: JsObject)
    ensures r.Keys == obj.Keys + KeysOf(sources)
    ensures forall k :: Defined(obj, k) ==> r[k] == obj[k]
    decreases |sources|
  {
    if |sources| == 0 then obj
    else DefaultsAll(Defaults(obj, sources[0]), sources[1..])
  }

  /** Applying the same defaults twice changes nothing. */
  lemma DefaultsIdempotent(obj: JsObject, source: JsObject)
    ensures Defaults(Defaults(obj, source), source) == Defaults(obj, source)
  {
    var once := Defaults(obj, source);
    var twice := Defaults(once, source);
    forall k | k in twice
      ensures twice[k] == once[k]
    {
      if k in source && !Defined(once, k) {
        assert !Defined(obj, k);
      }
    }
  }

  /** When `object` already defines every key of `source`, `_.defaults` is the identity. */
  lemma DefaultsOfDefinedIsIdentity(obj: JsObject, source: JsObject)
    requires forall k :: k in source ==> Defined(obj, k)
    ensures Defaults(obj, source) == obj
  {
  }

  /** A source that does not define `k` leaves `k` undefined in an object
      that does not define it. */
  lemma UndefinedSourceKeepsUndefined(obj: JsObject, source: JsObject, k: string)
    requires !Defined(obj, k) && !Defined(source, k)
    ensures !Defined(Defaults(obj, source), k)
  {
  }

  /** Among several sources the first one that defines a key supplies its
      value: earlier sources that lack the key or hold `undefined` for it do
      not count, and later sources cannot override it. */
  lemma {:induction false} FirstSourceWins(obj: JsObject, sources: seq<JsObject>, i: int, k: string)
    requires 0 <= i < |sources|
    requires !Defined(obj, k)
    requires forall j :: 0 <= j < i ==> !Defined(sources[j], k)
    requires Defined(sources[i], k)
    ensures k in DefaultsAll(obj, sources) && DefaultsAll(obj, sources)[k] == sources[i][k]
    decreases i
  {
    var once := Defaults(obj, sources[0]);
    if i == 0 {
      assert once[k] == sources[0][k] && Defined(once, k);
    } else {
      UndefinedSourceKeepsUndefined(obj, sources[0], k);
      assert forall j :: 0 <= j < i - 1 ==> sources[1..][j] == sources[j + 1];
      FirstSourceWins(once, sources[1..], i - 1, k);
    }
  }

  /** When neither the object nor any source defines a key, neither does the result. */
  lemma {:induction false} NoSourceDefines(obj: JsObject, sources: seq<JsObject>, k: string)
    requires !Defined(obj, k)
    requires forall j :: 0 <= j < |sources| ==> !Defined(sources[j], k)
    ensures !Defined(DefaultsAll(obj, sources), k)
    decreases |sources|
  {
    if |sources| > 0 {
      UndefinedSourceKeepsUndefined(obj, sources[0], k);
      assert forall j :: 0 <= j < |sources| - 1 ==> sources[1..][j] == sources[j + 1];
      NoSourceDefines(Defaults(obj, sources[0]), sources[1..], k);
    }
  }

  /** Two sources are the same as two `_.defaults` calls in a row. */
  lemma DefaultsAllPair(obj: JsObject, first: JsObject, second: JsObject)
    ensures DefaultsAll(obj, [first, second]) == Defaults(Defaults(obj, first), second)
  {
    var once := Defaults(obj, first);
    assert [first, second][1..] == [second];
    assert DefaultsAll(obj, [first, second]) == DefaultsAll(once, [second]);
    assert [second][1..] == [];
    assert DefaultsAll(once, [second]) == DefaultsAll(Defaults(once, second), []);
  }
}

=== FILE: naming.dfy ===
/**
 Names and paths shared by the dump functions (backup.js, db.js, dump.js) and
 the HTTP routes (index.js): the archive file name, its public location, and
 the routes built from the same `DUMP_PATH` prefix.
 */
module Naming {
  import opened JsValues

  const DumpMarker: string := "_dump_"
  const ArchiveExtension: string := ".tar.gz"

  /** `${DB_NAME}_dump_${DATETIME}.tar.gz`; `dateTime` is the formatted time
      of the dump. The name starts with the database name and the marker,
      ends with the extension, and holds the time in between. */
  function DumpFileName(dbName: string, dateTime: string): (f: string)
    ensures |f| == |dbName| + |dateTime| + |DumpMarker| + |ArchiveExtension|
    ensures f[..|dbName|] == dbName && f[|dbName|..|dbName| + |DumpMarker|] == DumpMarker
    ensures f[|dbName| + |DumpMarker|..|f| - |ArchiveExtension|] == dateTime
    ensures f[|f| - |ArchiveExtension|..] == ArchiveExtension
  {
    dbName + DumpMarker + dateTime + ArchiveExtension
  }

  /** The formatted time inside an archive name of database `dbName`, found by
      stripping the fixed prefix and suffix; `None` for any other name. */
  function DateTimeOf(dbName: string, fileName: string): (r: Option<string>)
    ensures r.Some? ==> DumpFileName(dbName, r.value) == fileName
  {
    var prefix := dbName + DumpMarker;
    var end := |fileName| - |ArchiveExtension|;
    if |prefix| <= end && fileName[..|prefix|] == prefix && fileName[end..] == ArchiveExtension then
      var dateTime := fileName[|prefix|..end];
      assert fileName == prefix + dateTime + ArchiveExtension;
      Some(dateTime)
    else None
  }

  /** Naming round trip: the time is recovered from the name it was written into. */
  lemma DateTimeOfDumpFileName(dbName: string, dateTime: string)
    ensures DateTimeOf(dbName, DumpFileName(dbName, dateTime)) == Some(dateTime)
  {
    var f := DumpFileName(dbName, dateTime);
    var prefix := dbName + DumpMarker;
    assert f == prefix + dateTime + ArchiveExtension;
    assert f[..|prefix|] == prefix;
    assert f[|f| - |ArchiveExtension|..] == ArchiveExtension;
    assert f[|prefix|..|f| - |ArchiveExtension|] == dateTime;
  }

  /** Dumps taken at instants with different formatted times never share a file. */
  lemma DumpFileNameInjective(dbName: string, t1: string, t2: string)
    requires t1 != t2
    ensures DumpFileName(dbName, t1) != DumpFileName(dbName, t2)
  {
    DateTimeOfDumpFileName(dbName, t1);
    DateTimeOfDumpFileName(dbName, t2);
  }

  /** `/${DUMP_PATH}${FILENAME}`: where an archive is published. */
  function Location(dumpPath: string, fileName: string): (loc: string)
    ensures |loc| == 1 + |dumpPath| + |fileName|
    ensures loc[0] == '/' && loc[1..1 + |dumpPath|] == dumpPath && loc[1 + |dumpPath|..] == fileName
  {
    "/" + dumpPath + fileName
  }

  /** The file name inside a location under `dumpPath`, or `None`. */
  function FileNameOf(dumpPath: string, location: string): (r: Option<string>)
    ensures r.Some? ==> Location(dumpPath, r.value) == location
  {
    var prefix := "/" + dumpPath;
    if |prefix| <= |location| && location[..|prefix|] == prefix then
      assert location == prefix + location[|prefix|..];
      Some(location[|prefix|..])
    else None
  }

  /** Location round trip. */
  lemma FileNameOfLocation(dumpPath: string, fileName: string)
    ensures FileNameOf(dumpPath, Location(dumpPath, fileName)) == Some(fileName)
  {
    var prefix := "/" + dumpPath;
    var loc := Location(dumpPath, fileName);
    assert loc == prefix + fileName;
    assert loc[..|prefix|] == prefix;
    assert loc[|prefix|..] == fileName;
  }

  /** The manual trigger route, `/${DUMP_PATH}dump`: the location an archive
      named `dump` would have. */
  function TriggerPath(dumpPath: string): (path: string)
    ensures path == Location(dumpPath, "dump")
  {
    "/" + dumpPath + "dump"
  }

  /** What a GET request path reaches among the routes of index.js, in the
      order they are registered: the trigger route first, then the
      `/${DUMP_PATH}:fileName` file route, whose parameter is one non-empty
      path segment. */
  datatype Route = TriggerDump | FileRequest(fileName: string) | NotRouted

  function MatchRoute(dumpPath: string, path: string): (r: Route)
    ensures r.TriggerDump? <==> path == TriggerPath(dumpPath)
    ensures r.FileRequest? ==>
      && path == Location(dumpPath, r.fileName)
      && r.fileName != "" && '/' !in r.fileName && r.fileName != "dump"
    ensures r.NotRouted? ==>
      forall f :: f != "" && '/' !in f ==> path != Location(dumpPath, f)
  {
    if path == TriggerPath(dumpPath) then TriggerDump
    else match FileNameOf(dumpPath, path)
      case Some(f) =>
        if f != "" && '/' !in f then FileRequest(f)
        else
          assert forall g :: path == Location(dumpPath, g) ==> g == f by {
            forall g | path == Location(dumpPath, g) ensures g == f {
              FileNameOfLocation(dumpPath, g);
            }
          }
          NotRouted
      case None =>
        assert forall g :: path != Location(dumpPath, g) by {
          forall g ensures path != Location(dumpPath, g) {
            FileNameOfLocation(dumpPath, g);
          }
        }
        NotRouted
  }

  /** The location a dump reports is answered by the file route with exactly
      the archive name the dump wrote, never by the trigger route. */
  lemma DumpLocationIsServed(dumpPath: string, dbName: string, dateTime: string)
    requires '/' !in dbName && '/' !in dateTime
    ensures MatchRoute(dumpPath, Location(dumpPath, DumpFileName(dbName, dateTime)))
         == FileRequest(DumpFileName(dbName, dateTime))
  {
    var f := DumpFileName(dbName, dateTime);
    assert f == dbName + DumpMarker + dateTime + ArchiveExtension;
    assert '/' !in f;
    assert Location(dumpPath, f) != TriggerPath(dumpPath) by {
      assert |f| > |"dump"|;
    }
    FileNameOfLocation(dumpPath, f);
  }
}

=== FILE: scheduler.dfy ===
/**
 The single-flight dump scheduler: `scheduleDump` of backup.js and
 `requestDump` of db.js and dump.js. The module state is the pair
 (`dumpScheduled`, `dumpTime`); the timers that `setTimeout` has armed and the
 callbacks that are running are made explicit, and the event loop becomes a
 sequence of events: a request at time `now`, the expiry of a timer, and the
 settlement of a running callback. Time is integer milliseconds.
 */
module Scheduler {
  import opened JsValues
  import opened Rclone
  import opened Dump

  /** The settings the timer callback reads. */
  datatype Deployment = Deployment(dump: DumpConfig, sync: SyncConfig)

  /** Node's largest timer delay, 2^31 - 1 ms. */
  const TimeoutMax: int := 2147483647

  /** The delay `setTimeout` actually waits: Node replaces a delay below 1 ms
      or above `TimeoutMax` by 1 ms. */
  function TimerDelay(delay: int): (d: int)
    ensures 1 <= d <= TimeoutMax
    ensures d == delay <==> 1 <= delay <= TimeoutMax
  {
    if 1 <= delay <= TimeoutMax then delay else 1
  }

  /** The largest magnitude of a JavaScript time value, 8.64e15 ms (100 000 000
      days either side of the epoch); a Date beyond it is an Invalid Date. */
  const MaxTimeValue: int := 8640000000000000

  predicate ValidTime(t: int) {
    -MaxTimeValue <= t <= MaxTimeValue
  }

  /** What date-fns' `formatDistance` throws for an Invalid Date. */
  const InvalidTimeValue: string := "RangeError: Invalid time value"

  /** A timer armed at `setAt` with the requested `delay`. */
  datatype Timer = Timer(setAt: int, delay: int)

  /** When the event loop may first run the timer. */
  function Due(t: Timer): int {
    t.setAt + TimerDelay(t.delay)
  }

  /** `dumpScheduled` and `dumpTime` as in the source, plus the armed timers
      (in arming order) and the number of callbacks started by a timer and
      not yet settled. */
  datatype State = State(dumpScheduled: bool, dumpTime: Option<int>, armed: seq<Timer>, running: nat)

  /** The module state at load time. */
  const Init: State := State(false, None, [], 0)

  datatype Event =
    | Request(now: int, delay: int)    // a call of scheduleDump / requestDump
    | Fire(now: int)                   // the event loop runs an expired timer
    | Complete(stamp: Outcome<string>, exec: ExecResult, fetched: FetchResult)
                                       // the running callback's awaits settle

  /** What an event did, as seen from outside. */
  datatype Effect =
    | Dropped                          // request while scheduled: nothing changes
    | Rejected                         // request whose deadline is no valid Date: it throws, nothing changes
    | Armed(deadline: int)             // one timer armed, due at `deadline`
    | Started(at: int)                 // a timer expired and its callback began the dump
    | Finished(run: CallbackRun)       // a callback settled
    | Nothing                          // no timer due, or no callback running

  /** One event. A request from the idle state whose `now + delay` is no
      valid Date throws in the log line before the flag is set; a timer fires
      no earlier than its deadline; the callback clears the state only when
      its awaits fulfil. */
  function Step(v: Variant, dep: Deployment, s: State, e: Event): (r: (State, Effect))
    ensures e.Request? ==> r.0.running == s.running && (r.0.dumpScheduled <==> !r.1.Rejected?)
    ensures e.Request? && s.dumpScheduled ==> r == (s, Dropped)
    ensures e.Request? && !s.dumpScheduled ==>
      (r.1.Rejected? <==> !(ValidTime(e.now) && ValidTime(e.now + e.delay)))
    ensures r.1.Armed? ==> e.Request? && r.0.dumpTime == Some(e.now + e.delay)
                           && r.0.armed == s.armed + [Timer(e.now, e.delay)]
    ensures r.1.Rejected? ==> r.0 == s
    ensures !e.Request? ==> r.0.dumpScheduled == s.dumpScheduled || (r.1.Finished? && r.1.run.settled.Ok?)
    ensures r.1.Finished? ==> (r.0.dumpScheduled <==> r.1.run.settled.Err? && s.dumpScheduled)
    ensures r.1.Started? ==> |s.armed| > 0 && Due(s.armed[0]) <= r.1.at && r.0.running == s.running + 1
    ensures r.1.Dropped? || r.1.Nothing? ==> r.0 == s
  {
    match e
    case Request(now, delay) =>
      if s.dumpScheduled then (s, Dropped)
      else if !(ValidTime(now) && ValidTime(now + delay)) then (s, Rejected)
      else
        var timer := Timer(now, delay);
        (State(true, Some(now + delay), s.armed + [timer], s.running), Armed(Due(timer)))
    case Fire(now) =>
      if |s.armed| > 0 && Due(s.armed[0]) <= now then
        (s.(armed := s.armed[1..], running := s.running + 1), Started(now))
      else (s, Nothing)
    case Complete(stamp, exec, fetched) =>
      if s.running == 0 then (s, Nothing)
      else
        var run := TimerCallback(v, dep.dump, dep.sync, stamp, exec, fetched);
        if run.settled.Ok? then (State(false, None, s.armed, s.running - 1), Finished(run))
        else (s.(running := s.running - 1), Finished(run))
  }

  /** A sequence of events, with the effect of each. */
  function Run(v: Variant, dep: Deployment, s: State, events: seq<Event>): (r: (State, seq<Effect>))
    ensures |r.1| == |events|
    decreases |events|
  {
    if |events| == 0 then (s, [])
    else
      var first := Step(v, dep, s, events[0]);
      var rest := Run(v, dep, first.0, events[1..]);
      (rest.0, [first.1] + rest.1)
  }

  /** Single flight: at most one timer armed or callback running, the flag is
      set while one is, the flag and `dumpTime` go together, and `dumpTime`
      is the armed timer's requested deadline. */
  predicate Inv(s: State) {
    && (s.dumpScheduled <==> s.dumpTime.Some?)
    && |s.armed| + s.running <= 1
    && (|s.armed| + s.running == 1 ==> s.dumpScheduled)
    && (|s.armed| == 1 ==> s.armed[0].setAt + s.armed[0].delay == s.dumpTime.value)
  }

  /** Scheduled with no timer armed and no callback running: nothing can ever clear the flag. */
  predicate Stuck(s: State) {
    s.dumpScheduled && |s.armed| == 0 && s.running == 0
  }

  lemma InitInv()
    ensures Inv(Init) && !Stuck(Init)
  {
  }

  lemma StepPreservesInv(v: Variant, dep: Deployment, s: State, e: Event)
    requires Inv(s)
    ensures Inv(Step(v, dep, s, e).0)
  {
  }

  /** Every reachable state keeps the single-flight invariant. */
  lemma {:induction false} RunPreservesInv(v: Variant, dep: Deployment, s: State, events: seq<Event>)
    requires Inv(s)
    ensures Inv(Run(v, dep, s, events).0)
    decreases |events|
  {
    if |events| > 0 {
      StepPreservesInv(v, dep, s, events[0]);
      RunPreservesInv(v, dep, Step(v, dep, s, events[0]).0, events[1..]);
    }
  }

  /** A timer callback never starts before the `dumpTime` recorded for it,
      provided the requested delay is one `setTimeout` honours, and never in
      the millisecond of its request. */
  lemma FiresNoEarlierThanDumpTime(v: Variant, dep: Deployment, s: State, now: int)
    requires Inv(s)
    requires Step(v, dep, s, Fire(now)).1.Started?
    ensures s.dumpTime.Some? && |s.armed| == 1
    ensures s.armed[0].delay <= TimeoutMax ==> now >= s.dumpTime.value
    ensures now > s.armed[0].setAt
  {
  }

  /** A delay above `TimeoutMax` (a `DUMP_DELAY_HOURS` above about 596.5) is run
      after 1 ms: the dump starts long before the `dumpTime` it announced. */
  lemma LongDelayFiresEarly(v: Variant, dep: Deployment)
    ensures var r := Run(v, dep, Init, [Request(0, TimeoutMax + 1), Fire(1)]);
      && r.1 == [Armed(1), Started(1)]
      && r.0.dumpTime == Some(TimeoutMax + 1)
      && r.0.running == 1
  {
    var events := [Request(0, TimeoutMax + 1), Fire(1)];
    var armed := State(true, Some(TimeoutMax + 1), [Timer(0, TimeoutMax + 1)], 0);
    var running := State(true, Some(TimeoutMax + 1), [], 1);
    assert Due(Timer(0, TimeoutMax + 1)) == 1;
    assert Init.armed + [Timer(0, TimeoutMax + 1)] == [Timer(0, TimeoutMax + 1)];
    assert [Timer(0, TimeoutMax + 1)][1..] == [];
    assert [Fire(1)][1..] == [];
    assert Step(v, dep, Init, events[0]) == (armed, Armed(1));
    assert Step(v, dep, armed, Fire(1)) == (running, Started(1));
    assert events[1..] == [Fire(1)];
    assert Run(v, dep, running, []) == (running, []);
    assert [Started(1)] + [] == [Started(1)];
    assert Run(v, dep, armed, [Fire(1)]) == (running, [Started(1)]);
    assert [Armed(1)] + [Started(1)] == [Armed(1), Started(1)];
  }

  /** While the flag is set, requests change nothing and arm nothing. */
  lemma {:induction false} RequestsWhileScheduled(v: Variant, dep: Deployment, s: State, events: seq<Event>)
    requires s.dumpScheduled
    requires forall i :: 0 <= i < |events| ==> events[i].Request?
    ensures Run(v, dep, s, events) == (s, seq(|events|, _ => Dropped))
    decreases |events|
  {
    if |events| > 0 {
      assert Step(v, dep, s, events[0]) == (s, Dropped);
      assert forall i :: 0 <= i < |events[1..]| ==> events[1..][i] == events[i + 1];
      RequestsWhileScheduled(v, dep, s, events[1..]);
      assert [Dropped] + seq(|events| - 1, _ => Dropped) == seq(|events|, _ => Dropped);
    } else {
      assert seq(|events|, _ => Dropped) == [];
    }
  }

  /** A burst of requests from the idle state arms exactly one timer, set by
      the FIRST request and due `TimerDelay(delay)` after it; the later ones
      are dropped. */
  lemma BurstCoalesces(v: Variant, dep: Deployment, s: State, now: int, delay: int, burst: seq<Event>)
    requires Inv(s) && !s.dumpScheduled
    requires ValidTime(now) && ValidTime(now + delay)
    requires forall i :: 0 <= i < |burst| ==> burst[i].Request?
    ensures Run(v, dep, s, [Request(now, delay)] + burst)
         == (State(true, Some(now + delay), [Timer(now, delay)], 0),
             [Armed(now + TimerDelay(delay))] + seq(|burst|, _ => Dropped))
  {
    var events := [Request(now, delay)] + burst;
    var armed := State(true, Some(now + delay), [Timer(now, delay)], 0);
    assert s.armed == [] && s.running == 0;
    assert events[0] == Request(now, delay);
    assert s.armed + [Timer(now, delay)] == [Timer(now, delay)];
    assert Step(v, dep, s, Request(now, delay)).0 == armed;
    assert Step(v, dep, s, events[0]) == (armed, Armed(now + TimerDelay(delay)));
    assert events[1..] == burst;
    RequestsWhileScheduled(v, dep, armed, burst);
  }

  /** A request from the idle state whose deadline lies outside the Date
      range throws before it sets the flag: nothing is scheduled, and the
      next request is treated as the first. */
  lemma {:induction false} OutOfRangeRequestRejected(v: Variant, dep: Deployment, s: State, now: int, delay: int, next: Event)
    requires Inv(s) && !s.dumpScheduled
    requires !ValidTime(now + delay)
    ensures Run(v, dep, s, [Request(now, delay), next])
         == (Step(v, dep, s, next).0, [Rejected, Step(v, dep, s, next).1])
  {
    var events := [Request(now, delay), next];
    assert Step(v, dep, s, events[0]) == (s, Rejected);
    assert events[1..] == [next];
    assert [next][1..] == [];
    var after := Step(v, dep, s, next);
    assert Run(v, dep, after.0, []) == (after.0, []);
    assert Run(v, dep, s, [next]) == (after.0, [after.1] + []);
    assert [Rejected] + ([after.1] + []) == [Rejected, after.1];
  }

  /** A delay of 9e15 ms from the epoch is past the last valid Date: the
      request is rejected and no timer is armed. */
  lemma DeadlinePastDateRangeArmsNothing(v: Variant, dep: Deployment)
    ensures Step(v, dep, Init, Request(0, 9000000000000000)) == (Init, Rejected)
    ensures Step(v, dep, Init, Request(0, MaxTimeValue)).1 == Armed(1)
  {
  }

  /** Failure containment of backup.js: once its timer has fired, the callback
      always clears the state (provided the archive name could be formatted),
      whatever the dump command and the sync request did. */
  lemma SwallowingAlwaysResets(dep: Deployment, s: State, dateTime: string, exec: ExecResult, fetched: FetchResult)
    requires Inv(s) && s.running == 1
    ensures Step(Swallowing, dep, s, Complete(Ok(dateTime), exec, fetched)).0 == Init
    ensures Step(Swallowing, dep, s, Complete(Ok(dateTime), exec, fetched)).1.run.sync.Some?
  {
  }

  /** In db.js and dump.js a failed dump skips the reset: the scheduler is
      left scheduled with nothing armed and nothing running. */
  lemma RethrowingFailureSticks(dep: Deployment, s: State, stamp: Outcome<string>, error: string, fetched: FetchResult)
    requires Inv(s) && s.running == 1
    ensures Stuck(Step(Rethrowing, dep, s, Complete(stamp, ExecFailed(error), fetched)).0)
  {
  }

  /** ... and a successful one clears it. */
  lemma RethrowingSuccessResets(dep: Deployment, s: State, dateTime: string, stdout: string, fetched: FetchResult)
    requires Inv(s) && s.running == 1
    ensures Step(Rethrowing, dep, s, Complete(Ok(dateTime), ExecOk(stdout), fetched)).0 == Init
  {
  }

  /** A stuck scheduler stays stuck for good: every later event leaves the
      state as it is, requests are dropped and no dump ever runs again. */
  lemma {:induction false} StuckIsForever(v: Variant, dep: Deployment, s: State, events: seq<Event>)
    requires Stuck(s)
    ensures Run(v, dep, s, events).0 == s
    ensures forall i :: 0 <= i < |events| ==> Run(v, dep, s, events).1[i] in {Dropped, Nothing}
    decreases |events|
  {
    if |events| > 0 {
      StuckIsForever(v, dep, s, events[1..]);
    }
  }

  /** A callback settlement whose archive name was formatted. */
  predicate FormattedCompletions(events: seq<Event>) {
    forall i :: 0 <= i < |events| && events[i].Complete? ==> events[i].stamp.Ok?
  }

  /** backup.js never gets stuck: from any non-stuck state satisfying the
      invariant, no sequence of events (with a valid date format) reaches a
      stuck state. */
  lemma {:induction false} SwallowingNeverSticks(dep: Deployment, s: State, events: seq<Event>)
    requires Inv(s) && !Stuck(s)
    requires FormattedCompletions(events)
    ensures !Stuck(Run(Swallowing, dep, s, events).0)
    decreases |events|
  {
    if |events| > 0 {
      var next := Step(Swallowing, dep, s, events[0]).0;
      StepPreservesInv(Swallowing, dep, s, events[0]);
      assert !Stuck(next);
      assert FormattedCompletions(events[1..]) by {
        forall i | 0 <= i < |events[1..]| && events[1..][i].Complete?
          ensures events[1..][i].stamp.Ok?
        {
          assert events[1..][i] == events[i + 1];
        }
      }
      SwallowingNeverSticks(dep, next, events[1..]);
    }
  }

  function CountArmed(effects: seq<Effect>): nat
    decreases |effects|
  {
    if |effects| == 0 then 0 else (if effects[0].Armed? then 1 else 0) + CountArmed(effects[1..])
  }

  function CountStarted(effects: seq<Effect>): nat
    decreases |effects|
  {
    if |effects| == 0 then 0 else (if effects[0].Started? then 1 else 0) + CountStarted(effects[1..])
  }

  function CountFinished(effects: seq<Effect>): nat
    decreases |effects|
  {
    if |effects| == 0 then 0 else (if effects[0].Finished? then 1 else 0) + CountFinished(effects[1..])
  }

  /** Accounting over any run: every armed timer is either still armed or has
      started its callback, and every started callback is either still running
      or has finished. */
  lemma {:induction false} RunAccounting(v: Variant, dep: Deployment, s: State, events: seq<Event>)
    ensures CountArmed(Run(v, dep, s, events).1) + |s.armed|
         == CountStarted(Run(v, dep, s, events).1) + |Run(v, dep, s, events).0.armed|
    ensures CountStarted(Run(v, dep, s, events).1) + s.running
         == CountFinished(Run(v, dep, s, events).1) + Run(v, dep, s, events).0.running
    decreases |events|
  {
    if |events| > 0 {
      var first := Step(v, dep, s, events[0]);
      RunAccounting(v, dep, first.0, events[1..]);
      var effects := Run(v, dep, s, events).1;
      assert effects[1..] == Run(v, dep, first.0, events[1..]).1;
    }
  }

  /** Single flight as seen from outside: from the initial state, the timers
      armed so far exceed the callbacks started by at most one, and the
      callbacks started exceed those finished by at most one. */
  lemma SingleFlight(v: Variant, dep: Deployment, events: seq<Event>)
    ensures CountStarted(Run(v, dep, Init, events).1) <= CountArmed(Run(v, dep, Init, events).1)
                                                      <= CountStarted(Run(v, dep, Init, events).1) + 1
    ensures CountFinished(Run(v, dep, Init, events).1) <= CountStarted(Run(v, dep, Init, events).1)
                                                       <= CountFinished(Run(v, dep, Init, events).1) + 1
  {
    InitInv();
    RunPreservesInv(v, dep, Init, events);
    RunAccounting(v, dep, Init, events);
  }

  lemma {:induction false} CountsAppend(a: seq<Effect>, b: seq<Effect>)
    ensures CountArmed(a + b) == CountArmed(a) + CountArmed(b)
    ensures CountStarted(a + b) == CountStarted(a) + CountStarted(b)
    ensures CountFinished(a + b) == CountFinished(a) + CountFinished(b)
    decreases |a|
  {
    if |a| == 0 {
      assert a + b == b;
    } else {
      assert (a + b)[1..] == a[1..] + b;
      CountsAppend(a[1..], b);
    }
  }

  lemma {:induction false} CountsOfDropped(n: nat)
    ensures CountArmed(seq(n, _ => Dropped)) == 0
    ensures CountStarted(seq(n, _ => Dropped)) == 0
    ensures CountFinished(seq(n, _ => Dropped)) == 0
  {
    if n > 0 {
      assert seq(n, _ => Dropped)[1..] == seq(n - 1, _ => Dropped);
      CountsOfDropped(n - 1);
    }
  }

  /** Running two sequences of events one after the other. */
  lemma {:induction false} RunAppend(v: Variant, dep: Deployment, s: State, a: seq<Event>, b: seq<Event>)
    ensures Run(v, dep, s, a + b)
         == (Run(v, dep, Run(v, dep, s, a).0, b).0, Run(v, dep, s, a).1 + Run(v, dep, Run(v, dep, s, a).0, b).1)
    decreases |a|
  {
    if |a| == 0 {
      assert a + b == b;
      assert Run(v, dep, s, a) == (s, []);
      assert [] + Run(v, dep, s, b).1 == Run(v, dep, s, b).1;
    } else {
      var first := Step(v, dep, s, a[0]);
      assert (a + b)[0] == a[0];
      assert (a + b)[1..] == a[1..] + b;
      RunAppend(v, dep, first.0, a[1..], b);
      var restA := Run(v, dep, first.0, a[1..]);
      var restB := Run(v, dep, restA.0, b);
      assert Run(v, dep, s, a) == (restA.0, [first.1] + restA.1);
      assert Run(v, dep, s, a + b) == (restB.0, [first.1] + (restA.1 + restB.1));
      assert [first.1] + (restA.1 + restB.1) == ([first.1] + restA.1) + restB.1;
    }
  }

  /** The events of one cycle: a first request and a burst, the timer
      expiry, requests during the run, and the callback's settlement. */
  function Cycle(now: int, delay: int, burst: seq<Event>, fireAt: int, during: seq<Event>,
                 dateTime: string, exec: ExecResult, fetched: FetchResult): seq<Event>
  {
    ([Request(now, delay)] + burst) + ([Fire(fireAt)] + during) + [Complete(Ok(dateTime), exec, fetched)]
  }

  /** The timer expiring after the burst, then requests while the dump runs. */
  lemma FireThenRequests(v: Variant, dep: Deployment, timer: Timer, fireAt: int, during: seq<Event>)
    requires fireAt >= Due(timer)
    requires forall i :: 0 <= i < |during| ==> during[i].Request?
    ensures var dumpTime := timer.setAt + timer.delay;
      Run(v, dep, State(true, Some(dumpTime), [timer], 0), [Fire(fireAt)] + during)
         == (State(true, Some(dumpTime), [], 1), [Started(fireAt)] + seq(|during|, _ => Dropped))
  {
    var dumpTime := timer.setAt + timer.delay;
    var scheduled := State(true, Some(dumpTime), [timer], 0);
    var running := State(true, Some(dumpTime), [], 1);
    var middle := [Fire(fireAt)] + during;
    assert [timer][1..] == [];
    assert Step(v, dep, scheduled, middle[0]) == (running, Started(fireAt));
    assert middle[1..] == during;
    RequestsWhileScheduled(v, dep, running, during);
  }

  /** The running callback settling with a fulfilled promise. */
  lemma CompleteResets(v: Variant, dep: Deployment, dumpTime: int, dateTime: string, exec: ExecResult, fetched: FetchResult)
    requires v.Swallowing? || exec.ExecOk?
    ensures Run(v, dep, State(true, Some(dumpTime), [], 1), [Complete(Ok(dateTime), exec, fetched)]).0 == Init
    ensures CountFinished(Run(v, dep, State(true, Some(dumpTime), [], 1), [Complete(Ok(dateTime), exec, fetched)]).1) == 1
    ensures CountArmed(Run(v, dep, State(true, Some(dumpTime), [], 1), [Complete(Ok(dateTime), exec, fetched)]).1) == 0
    ensures CountStarted(Run(v, dep, State(true, Some(dumpTime), [], 1), [Complete(Ok(dateTime), exec, fetched)]).1) == 0
  {
    var last: seq<Event> := [Complete(Ok(dateTime), exec, fetched)];
    var completed := Step(v, dep, State(true, Some(dumpTime), [], 1), last[0]);
    assert completed.0 == Init && completed.1.Finished?;
    assert last[1..] == [];
    assert Run(v, dep, State(true, Some(dumpTime), [], 1), last) == (Init, [completed.1] + []);
  }

  /** The run of one cycle, effect by effect. */
  lemma CycleRun(v: Variant, dep: Deployment, now: int, delay: int, burst: seq<Event>,
                 fireAt: int, during: seq<Event>, dateTime: string, exec: ExecResult, fetched: FetchResult)
    requires forall i :: 0 <= i < |burst| ==> burst[i].Request?
    requires forall i :: 0 <= i < |during| ==> during[i].Request?
    requires ValidTime(now) && ValidTime(now + delay)
    requires fireAt >= now + TimerDelay(delay)
    requires v.Swallowing? || exec.ExecOk?
    ensures Run(v, dep, Init, Cycle(now, delay, burst, fireAt, during, dateTime, exec, fetched))
         == (Init, ([Armed(now + TimerDelay(delay))] + seq(|burst|, _ => Dropped))
                   + ([Started(fireAt)] + seq(|during|, _ => Dropped))
                   + Run(v, dep, State(true, Some(now + delay), [], 1), [Complete(Ok(dateTime), exec, fetched)]).1)
  {
    var first := [Request(now, delay)] + burst;
    var middle := [Fire(fireAt)] + during;
    var last: seq<Event> := [Complete(Ok(dateTime), exec, fetched)];
    var running := State(true, Some(now + delay), [], 1);
    InitInv();
    BurstCoalesces(v, dep, Init, now, delay, burst);
    FireThenRequests(v, dep, Timer(now, delay), fireAt, during);
    CompleteResets(v, dep, now + delay, dateTime, exec, fetched);
    RunAppend(v, dep, Init, first, middle);
    RunAppend(v, dep, Init, first + middle, last);
  }

  /** One whole cycle from the initial state: a burst of requests, the timer
      expiring when `setTimeout` first may run it, more requests while
      the dump runs, and the callback settling. Exactly one timer is armed,
      one dump runs, and the state returns to the initial one, so the next
      request schedules anew. In backup.js this holds whatever the dump and
      the sync did; in db.js and dump.js only when the dump succeeded. */
  lemma FullCycle(v: Variant, dep: Deployment, now: int, delay: int, burst: seq<Event>,
                  fireAt: int, during: seq<Event>, dateTime: string, exec: ExecResult, fetched: FetchResult)
    requires forall i :: 0 <= i < |burst| ==> burst[i].Request?
    requires forall i :: 0 <= i < |during| ==> during[i].Request?
    requires ValidTime(now) && ValidTime(now + delay)
    requires fireAt >= now + TimerDelay(delay)
    requires v.Swallowing? || exec.ExecOk?
    ensures var r := Run(v, dep, Init, Cycle(now, delay, burst, fireAt, during, dateTime, exec, fetched));
      r.0 == Init && CountArmed(r.1) == 1 && CountStarted(r.1) == 1 && CountFinished(r.1) == 1
  {
    CycleRun(v, dep, now, delay, burst, fireAt, during, dateTime, exec, fetched);
    CompleteResets(v, dep, now + delay, dateTime, exec, fetched);
    var effects1 := [Armed(now + TimerDelay(delay))] + seq(|burst|, _ => Dropped);
    var effects2 := [Started(fireAt)] + seq(|during|, _ => Dropped);
    var effects3 := Run(v, dep, State(true, Some(now + delay), [], 1), [Complete(Ok(dateTime), exec, fetched)]).1;
    CountsOfDropped(|burst|);
    CountsOfDropped(|during|);
    CountsAppend([Armed(now + TimerDelay(delay))], seq(|burst|, _ => Dropped));
    CountsAppend([Started(fireAt)], seq(|during|, _ => Dropped));
    CountsAppend(effects1, effects2);
    CountsAppend(effects1 + effects2, effects3);
  }

  /** With a delay of 1000 ms, a trigger at 0 and another at 500 give one
      dump: the first arms a timer due at 1000, the second is dropped, the
      dump starts at 1000, and its settlement resets the state. */
  lemma OneRunForTwoTriggers(v: Variant, dep: Deployment, dateTime: string, stdout: string, fetched: FetchResult)
    ensures var events := [Request(0, 1000), Request(500, 1000), Fire(1000), Complete(Ok(dateTime), ExecOk(stdout), fetched)];
      && Run(v, dep, Init, events).0 == Init
      && |Run(v, dep, Init, events).1| == 4
      && Run(v, dep, Init, events).1[..3] == [Armed(1000), Dropped, Started(1000)]
      && Run(v, dep, Init, events).1[3].Finished?
      && CountStarted(Run(v, dep, Init, events).1) == 1
  {
    var events := [Request(0, 1000), Request(500, 1000), Fire(1000), Complete(Ok(dateTime), ExecOk(stdout), fetched)];
    var last := Run(v, dep, State(true, Some(1000), [], 1), [Complete(Ok(dateTime), ExecOk(stdout), fetched)]).1;
    FullCycle(v, dep, 0, 1000, [Request(500, 1000)], 1000, [], dateTime, ExecOk(stdout), fetched);
    CycleRun(v, dep, 0, 1000, [Request(500, 1000)], 1000, [], dateTime, ExecOk(stdout), fetched);
    assert Cycle(0, 1000, [Request(500, 1000)], 1000, [], dateTime, ExecOk(stdout), fetched) == events;
    assert TimerDelay(1000) == 1000;
    assert seq(1, _ => Dropped) == [Dropped];
    assert seq(0, _ => Dropped) == [];
    assert |last| == 1 && last[0].Finished?;
    assert Run(v, dep, Init, events).1 == [Armed(1000), Dropped, Started(1000)] + last;
  }

  /** `backup(delay)` of backup.js: what it did to the scheduler, the direct
      run it made (if any), and what its promise fulfils with. */
  datatype BackupCall = BackupCall(state: State, effect: Effect, direct: Option<DirectRun>, returned: Outcome<Option<string>>)

  /** Delay 0 runs dump then sync at once without reading or setting the flag
      and returns the dump's location; any other delay goes through the
      scheduler with `sync` as the continuation and returns null, or rejects
      when the scheduler's log line throws. `Ok(None)` stands for the
      `undefined` of a failed direct dump and for the `null` of a delayed call. */
  function Backup(dep: Deployment, s: State, now: int, delay: int,
                  stamp: Outcome<string>, exec: ExecResult, fetched: FetchResult): (r: BackupCall)
    ensures delay == 0 ==> r.state == s && r.direct.Some? && r.returned == r.direct.value.location
    ensures delay == 0 && stamp.Ok? && exec.ExecOk? ==> r.returned == Ok(Some(DumpLocation(dep.dump, stamp.value)))
    ensures delay == 0 && stamp.Ok? ==> r.returned.Ok? && r.direct.value.sync.Some?
    ensures delay == 0 && stamp.Ok? && exec.ExecFailed? ==> r.returned == Ok(None)
    ensures delay == 0 && stamp.Err? ==> r.returned == Err(stamp.error) && r.direct.value.sync.None?
    ensures delay != 0 ==> r.direct.None? && (r.returned == Ok(None) <==> !r.effect.Rejected?)
    ensures delay != 0 && r.effect.Rejected? ==> r.returned == Err(InvalidTimeValue)
    ensures delay != 0 ==> (r.state, r.effect) == Step(Swallowing, dep, s, Request(now, delay))
  {
    if delay == 0 then
      var run := DirectBackup(dep.dump, dep.sync, stamp, exec, fetched);
      BackupCall(s, Nothing, Some(run), run.location)
    else
      var stepped := Step(Swallowing, dep, s, Request(now, delay));
      var returned := if stepped.1.Rejected? then Err(InvalidTimeValue) else Ok(None);
      BackupCall(stepped.0, stepped.1, None, returned)
  }

  /** A zero-delay backup is not gated: it dumps even while a delayed dump is
      scheduled, where a request with a delay would be dropped. */
  lemma ZeroDelayBypassesGate(dep: Deployment, s: State, now: int, delay: int,
                              dateTime: string, exec: ExecResult, fetched: FetchResult)
    requires s.dumpScheduled && delay != 0
    ensures Backup(dep, s, now, 0, Ok(dateTime), exec, fetched).direct.Some?
    ensures Backup(dep, s, now, delay, Ok(dateTime), exec, fetched).effect == Dropped
  {
  }
}

=== FILE: server.dfy ===
/**
 The HTTP surface of index.js that touches the core: the API-key gate, the
 manual trigger route, and the route that serves archives by file name.
 */
module Server {
  import opened JsValues
  import opened Naming
  import opened Dump
  import opened Rclone
  import opened Scheduler

  /** `req.query.apiKey` as the query-string parser produces it: absent, one
      string, a list (`apiKey[]=...` or a repeated key), or a nested object. */
  datatype QueryValue = Missing | Text(s: string) | List(items: seq<string>) | Nested

  /** `Array.prototype.toString` on strings: the items joined by commas. */
  function Join(items: seq<string>): string
    decreases |items|
  {
    if |items| == 0 then ""
    else if |items| == 1 then items[0]
    else items[0] + "," + Join(items[1..])
  }

  /** The string a query value converts to when compared with a string, if any. */
  function Rendered(q: QueryValue): Option<string> {
    match q
    case Missing => None
    case Text(s) => Some(s)
    case List(items) => Some(Join(items))
    case Nested => Some("[object Object]")
  }

  /** `req.query.apiKey == API_KEY`, JavaScript's loose equality with a string. */
  predicate LooselyEquals(q: QueryValue, key: string) {
    match q
    case Missing => false           // undefined == "..." is false
    case Text(s) => s == key
    case List(items) => Join(items) == key
    case Nested => key == "[object Object]"
  }

  /** What a middleware does with a request. */
  datatype Gate = CallNext | Respond(status: int, body: string)

  /** `checkApiKey`: with a non-empty `API_KEY`, a request whose `apiKey`
      parameter differs is answered 401 "Unauthorized"; otherwise the next
      handler runs. */
  function CheckApiKey(apiKey: string, param: QueryValue): (r: Gate)
    ensures apiKey == "" ==> r == CallNext
    ensures apiKey != "" && param.Missing? ==> r == Respond(401, "Unauthorized")
    ensures r.CallNext? <==> apiKey == "" || Rendered(param) == Some(apiKey)
    ensures r.Respond? ==> r == Respond(401, "Unauthorized")
  {
    if apiKey != "" && !LooselyEquals(param, apiKey) then Respond(401, "Unauthorized")
    else CallNext
  }

  /** A single-element list passes as its element: `?apiKey[]=KEY` is as good as `?apiKey=KEY`. */
  lemma SingletonListPasses(apiKey: string)
    ensures CheckApiKey(apiKey, List([apiKey])) == CallNext
    ensures CheckApiKey(apiKey, Text(apiKey)) == CallNext
  {
  }

  /** How the manual trigger request is answered. */
  datatype HttpReply = Status(code: int, body: string) | ToErrorHandler(error: string)

  datatype ManualReply = ManualReply(reply: HttpReply, backup: Option<BackupCall>)

  /** `GET /${DUMP_PATH}dump`: the key gate, then `backup()` with its default
      delay of 0; 202 once that promise fulfils, its rejection handed to `next`. */
  function ManualTrigger(apiKey: string, param: QueryValue, dep: Deployment, s: State, now: int,
                         stamp: Outcome<string>, exec: ExecResult, fetched: FetchResult): (r: ManualReply)
    ensures CheckApiKey(apiKey, param).Respond? ==> r == ManualReply(Status(401, "Unauthorized"), None)
    ensures CheckApiKey(apiKey, param).CallNext? ==>
      && r.backup.Some? && r.backup.value.state == s && r.backup.value.direct.Some?
      && (r.reply == Status(202, "") <==> stamp.Ok?)
    ensures CheckApiKey(apiKey, param).CallNext? ==> r.backup == Some(Backup(dep, s, now, 0, stamp, exec, fetched))
    ensures CheckApiKey(apiKey, param).CallNext? && stamp.Err? ==> r.reply == ToErrorHandler(stamp.error)
  {
    match CheckApiKey(apiKey, param)
    case Respond(code, body) => ManualReply(Status(code, body), None)
    case CallNext =>
      var call := Backup(dep, s, now, 0, stamp, exec, fetched);
      match call.returned
      case Ok(_) => ManualReply(Status(202, ""), Some(call))
      case Err(e) => ManualReply(ToErrorHandler(e), Some(call))
  }

  /** The `/`-separated segments of a path, as `split('/')` gives them. */
  function Segments(path: string): (segs: seq<string>)
    ensures |segs| >= 1
    decreases |path|
  {
    if |path| == 0 then [""]
    else
      var rest := Segments(path[1..]);
      if path[0] == '/' then [""] + rest else [[path[0]] + rest[0]] + rest[1..]
  }

  /** `send`'s test for a dotfile segment: longer than one character and
      starting with a dot. `..` is one too, and is refused as a path above
      the root. */
  predicate IsDotFile(segment: string) {
    |segment| > 1 && segment[0] == '.'
  }

  predicate HasDotFile(path: string) {
    exists k :: 0 <= k < |Segments(path)| && IsDotFile(Segments(path)[k])
  }

  /** A name without `/` is one segment. */
  lemma {:induction false} SegmentsOfPlainName(name: string)
    requires '/' !in name
    ensures Segments(name) == [name]
    decreases |name|
  {
    if |name| > 0 {
      SegmentsOfPlainName(name[1..]);
      assert [name[0]] + name[1..] == name;
    }
  }

  /** A slash-free first segment followed by the rest of the path. */
  lemma {:induction false} SegmentsOfJoin(first: string, rest: string)
    requires '/' !in first
    ensures Segments(first + "/" + rest) == [first] + Segments(rest)
    decreases |first|
  {
    var path := first + "/" + rest;
    if |first| == 0 {
      assert path == "/" + rest && path[1..] == rest;
    } else {
      assert path[1..] == first[1..] + "/" + rest;
      SegmentsOfJoin(first[1..], rest);
      assert [first[0]] + first[1..] == first;
    }
  }

  /** What the file route does with a name. Under `dotfiles: 'deny'` the
      `send` library refuses a name with a dotfile segment; "." and the
      empty name denote the dump directory itself, which `sendFile` does not
      send, handing its error to `next`; any other name is that path under
      the dump directory. A name holds a `/` only when the request encoded it. */
  datatype FileReply = Denied | NotAFile | SendFile(file: Artifact)

  function ServeFile(dumpDirectory: string, fileName: string): (r: FileReply)
    ensures r.Denied? <==> HasDotFile(fileName)
    ensures r.NotAFile? <==> fileName in {"", "."}
    ensures r.SendFile? ==> r.file.directory == dumpDirectory && r.file.fileName == fileName
  {
    if HasDotFile(fileName) then Denied
    else if fileName == "" || fileName == "." then
      assert Segments(fileName) == [fileName] by { SegmentsOfPlainName(fileName); }
      NotAFile
    else SendFile(Artifact(dumpDirectory, fileName))
  }

  /** For a name without `/` the refusal is a test of its first character. */
  lemma PlainNameRefusal(dumpDirectory: string, fileName: string)
    requires '/' !in fileName
    ensures ServeFile(dumpDirectory, fileName).Denied? <==> |fileName| > 1 && fileName[0] == '.'
  {
    SegmentsOfPlainName(fileName);
    assert Segments(fileName)[0] == fileName;
  }

  /** A dotfile after an encoded slash is refused too: `a/.b` is denied. */
  lemma DotFileAfterSlashRefused(dumpDirectory: string, dir: string, file: string)
    requires '/' !in dir && '/' !in file && IsDotFile(file)
    ensures ServeFile(dumpDirectory, dir + "/" + file) == Denied
  {
    SegmentsOfJoin(dir, file);
    SegmentsOfPlainName(file);
    assert Segments(dir + "/" + file)[1] == file;
  }

  /** An archive name built from slash-free parts has no `/`. */
  lemma ArchiveNameHasNoSlash(dbName: string, dateTime: string)
    requires '/' !in dbName && '/' !in dateTime
    ensures '/' !in DumpFileName(dbName, dateTime)
  {
    var marked := dbName + DumpMarker;
    assert '/' !in DumpMarker && '/' !in ArchiveExtension;
    assert '/' !in marked;
    assert '/' !in marked + dateTime;
    assert DumpFileName(dbName, dateTime) == marked + dateTime + ArchiveExtension;
  }

  /** An archive name starts with a dot only when the database name does. */
  lemma ArchiveNameFirstChar(dbName: string, dateTime: string)
    requires dbName == "" || dbName[0] != '.'
    ensures DumpFileName(dbName, dateTime)[0] != '.'
  {
    var f := DumpFileName(dbName, dateTime);
    if dbName == "" {
      assert f[..|DumpMarker|] == DumpMarker;
    } else {
      assert f[..|dbName|] == dbName;
    }
  }

  /** End to end: requesting the location a dump reported returns the very
      archive the dump command was told to write, provided the names contain
      no `/` and the database name does not start with a dot. */
  lemma PublishedDumpIsServed(cfg: DumpConfig, dateTime: string)
    requires '/' !in cfg.dbName && '/' !in dateTime
    requires cfg.dbName == "" || cfg.dbName[0] != '.'
    ensures MatchRoute(cfg.dumpPath, DumpLocation(cfg, dateTime)) == FileRequest(DumpTarget(cfg, dateTime).fileName)
    ensures ServeFile(cfg.dumpDirectory, DumpTarget(cfg, dateTime).fileName) == SendFile(DumpTarget(cfg, dateTime))
  {
    var f := DumpFileName(cfg.dbName, dateTime);
    DumpLocationIsServed(cfg.dumpPath, cfg.dbName, dateTime);
    ArchiveNameHasNoSlash(cfg.dbName, dateTime);
    ArchiveNameFirstChar(cfg.dbName, dateTime);
    PlainNameRefusal(cfg.dumpDirectory, f);
  }
}

=== FILE: sync.dfy ===
/**
 The replication request of backup.js (`sync`, `checkHTTPStatus`): the
 request body and URL sent to the rclone remote-control service, and the
 containment of every failure of that request.
 */
module Rclone {
  import opened JsValues

  /** The HTTP response as `fetch` reports it. `json` is what `res.json()`
      settles to; decoding itself is not modelled. */
  datatype Response = Response(ok: bool, status: nat, statusText: string, json: Outcome<JsValue>)

  /** The settlement of the `fetch` promise. */
  datatype FetchResult = NetworkFailure(reason: string) | Received(response: Response)

  /** Decimal digits of a status code, as a template literal renders it. */
  function Decimal(n: nat): (s: string)
    ensures |s| >= 1
    ensures forall i :: 0 <= i < |s| ==> '0' <= s[i] <= '9'
  {
    var digit := ['0' + (n % 10) as char];
    if n < 10 then digit else Decimal(n / 10) + digit
  }

  /** The message `checkHTTPStatus` throws: `${statusText} (${status})`. */
  function StatusMessage(res: Response): string {
    res.statusText + " (" + Decimal(res.status) + ")"
  }

  /** `checkHTTPStatus`: the response unchanged when `ok`, otherwise a throw. */
  function CheckHttpStatus(res: Response): (r: Outcome<Response>)
    ensures r.Ok? <==> res.ok
    ensures r.Ok? ==> r.value == res
    ensures r.Err? ==> r.error == StatusMessage(res)
  {
    if !res.ok then Err(StatusMessage(res)) else Ok(res)
  }

  /** The unresolved `SYNC_*` settings. `port` is the port as a template
      literal renders it. */
  datatype SyncConfig = SyncConfig(host: string, port: string, mode: string, src: JsValue, dst: JsValue)

  /** `SYNC_DEFAULTS`. */
  const SyncDefaults: JsObject := map["_async" := Bool(true)]

  /** The request body: the caller's options, completed by `_.defaults` with
      the configured source and destination and then with `_async: true`. */
  function SyncBody(cfg: SyncConfig, opts: JsObject): (body: JsObject)
    ensures body.Keys == opts.Keys + {"srcFs", "dstFs", "_async"}
    ensures forall k :: Defined(opts, k) ==> body[k] == opts[k]
    ensures !Defined(opts, "srcFs") ==> body["srcFs"] == cfg.src
    ensures !Defined(opts, "dstFs") ==> body["dstFs"] == cfg.dst
    ensures !Defined(opts, "_async") ==> body["_async"] == Bool(true)
    ensures forall k :: k in opts && k !in {"srcFs", "dstFs", "_async"} ==> body[k] == opts[k]
  {
    var endpoints := map["srcFs" := cfg.src, "dstFs" := cfg.dst];
    DefaultsAllPair(opts, endpoints, SyncDefaults);
    DefaultsAll(opts, [endpoints, SyncDefaults])
  }

  /** `http://${SYNC_HOST}:${SYNC_PORT}/sync/${SYNC_MODE}`: the scheme and the
      host, a colon, then the port, and the route and mode at the end. */
  function SyncUrl(cfg: SyncConfig): (url: string)
    ensures |url| == |Scheme| + |cfg.host| + 1 + |cfg.port| + |"/sync/"| + |cfg.mode|
    ensures url[..|Scheme|] == Scheme && url[|Scheme|..|Scheme| + |cfg.host|] == cfg.host
    ensures url[|Scheme| + |cfg.host|] == ':'
    ensures url[|url| - |cfg.mode| - |"/sync/"|..] == "/sync/" + cfg.mode
  {
    var url := Scheme + cfg.host + ":" + cfg.port + "/sync/" + cfg.mode;
    assert url == Scheme + cfg.host + (":" + cfg.port) + ("/sync/" + cfg.mode);
    url
  }

  /** `s` without the leading `prefix`, or `None` when it does not start with it. */
  function StripPrefix(s: string, prefix: string): (r: Option<string>)
    ensures r.Some? ==> s == prefix + r.value
  {
    if |prefix| <= |s| && s[..|prefix|] == prefix then
      assert s == s[..|prefix|] + s[|prefix|..];
      Some(s[|prefix|..])
    else None
  }

  lemma StripPrefixOf(prefix: string, rest: string)
    ensures StripPrefix(prefix + rest, prefix) == Some(rest)
  {
    var s := prefix + rest;
    assert s[..|prefix|] == prefix;
    assert s[|prefix|..] == rest;
  }

  /** `s` split around its first `c`. */
  function SplitAt(s: string, c: char): (r: Option<(string, string)>)
    ensures r.Some? ==> s == r.value.0 + [c] + r.value.1 && c !in r.value.0
    ensures r.None? ==> c !in s
  {
    if |s| == 0 then None
    else if s[0] == c then
      assert s == [] + [c] + s[1..];
      Some(([], s[1..]))
    else match SplitAt(s[1..], c)
      case None => None
      case Some(parts) =>
        assert s == [s[0]] + s[1..];
        Some(([s[0]] + parts.0, parts.1))
  }

  /** Splitting at the first `c` undoes joining with `c` when the head has none. */
  lemma {:induction false} SplitAtJoin(a: string, c: char, b: string)
    requires c !in a
    ensures SplitAt(a + [c] + b, c) == Some((a, b))
  {
    var s := a + [c] + b;
    if |a| == 0 {
      assert s == [c] + b;
    } else {
      assert s[1..] == a[1..] + [c] + b;
      SplitAtJoin(a[1..], c, b);
      assert [a[0]] + a[1..] == a;
    }
  }

  const Scheme: string := "http://"
  const SyncRoute: string := "sync/"

  /** Host, port and mode read back from a sync URL, or `None`. */
  function ParseSyncUrl(url: string): (r: Option<(string, string, string)>)
    ensures r.Some? ==> url == Scheme + r.value.0 + ":" + r.value.1 + "/sync/" + r.value.2
  {
    match StripPrefix(url, Scheme)
    case None => None
    case Some(rest) =>
      match SplitAt(rest, ':')
      case None => None
      case Some(hostRest) =>
        match SplitAt(hostRest.1, '/')
        case None => None
        case Some(portRest) =>
          match StripPrefix(portRest.1, SyncRoute)
          case None => None
          case Some(mode) =>
            UrlShape(url, rest, hostRest.0, hostRest.1, portRest.0, portRest.1, mode);
            Some((hostRest.0, portRest.0, mode))
  }

  /** Reassembling the pieces `ParseSyncUrl` cuts a URL into. */
  lemma UrlShape(url: string, rest: string, host: string, afterHost: string,
                 port: string, afterPort: string, mode: string)
    requires url == Scheme + rest
    requires rest == host + [':'] + afterHost
    requires afterHost == port + ['/'] + afterPort
    requires afterPort == SyncRoute + mode
    ensures url == Scheme + host + ":" + port + "/sync/" + mode
  {
    assert afterHost == port + "/sync/" + mode;
  }

  /** URL round trip: the configured host, port and mode are what the URL
      names, provided the host has no `:` and the port no `/`. */
  lemma ParseSyncUrlRoundTrip(cfg: SyncConfig)
    requires ':' !in cfg.host && '/' !in cfg.port
    ensures ParseSyncUrl(SyncUrl(cfg)) == Some((cfg.host, cfg.port, cfg.mode))
  {
    var afterPort := SyncRoute + cfg.mode;
    var afterHost := cfg.port + ['/'] + afterPort;
    var rest := cfg.host + [':'] + afterHost;
    assert SyncUrl(cfg) == Scheme + rest;
    StripPrefixOf(Scheme, rest);
    SplitAtJoin(cfg.host, ':', afterHost);
    SplitAtJoin(cfg.port, '/', afterPort);
    StripPrefixOf(SyncRoute, cfg.mode);
  }

  /** What `sync` logs as the fate of the request. */
  datatype SyncReport = Sent(json: JsValue) | Problem(error: string)

  /** One call of `sync`: the request it sends, what it logs, and how its promise settles. */
  datatype SyncCall = SyncCall(url: string, body: JsObject, report: SyncReport, result: Outcome<JsValue>)

  /** `sync(opts)`: POST the body to the URL, check the status, read the JSON.
      Every failure on the way is caught and logged, so the promise always
      fulfils with `undefined`. */
  function Sync(cfg: SyncConfig, opts: JsObject, fetched: FetchResult): (c: SyncCall)
    ensures c.result == Ok(Undefined)
    ensures c.url == SyncUrl(cfg) && c.body == SyncBody(cfg, opts)
    ensures c.report.Sent? <==> fetched.Received? && fetched.response.ok && fetched.response.json.Ok?
    ensures fetched.NetworkFailure? ==> c.report == Problem(fetched.reason)
    ensures fetched.Received? && !fetched.response.ok ==> c.report == Problem(StatusMessage(fetched.response))
  {
    var report :=
      match fetched
      case NetworkFailure(reason) => Problem(reason)
      case Received(res) =>
        match CheckHttpStatus(res)
        case Err(e) => Problem(e)
        case Ok(checked) =>
          match checked.json
          case Err(e) => Problem(e)
          case Ok(json) => Sent(json);
    SyncCall(SyncUrl(cfg), SyncBody(cfg, opts), report, Ok(Undefined))
  }
}

=== FILE: trigger.dfy ===
/**
 The change-feed trigger: the ReQL filter `docFilter` on the `document`
 table (backup.js, db.js, dump.js) and the wiring that turns each change the
 feed delivers into one scheduler request (db.js, dump.js) or one `backup`
 call (backup.js).
 */
module Trigger {
  import opened JsValues
  import opened Dump
  import opened Scheduler

  /** A document as the filter sees it: its `status` field, if it has one. */
  datatype Doc = Doc(status: Option<string>)

  /** A change record. `kind` is the `type` field, present only when the feed
      was opened with `includeTypes: true`; `oldVal`/`newVal` are `old_val`
      and `new_val`, null for an added or a removed document respectively. */
  datatype Change = Change(kind: Option<string>, oldVal: Option<Doc>, newVal: Option<Doc>)

  /** The value of a ReQL boolean term on one row, or an evaluation error
      (a missing field, a bracket on null). */
  datatype Eval = Value(b: bool) | Error

  /** `r.row(...)('status')`: an error when the document is null or has no status. */
  function StatusOf(doc: Option<Doc>): Option<string> {
    match doc
    case None => None
    case Some(d) => d.status
  }

  /** `r.row('type').eq('add')` */
  function AddedItem(c: Change): (r: Eval)
    ensures r == Error <==> c.kind.None?
    ensures r == Value(true) <==> c.kind == Some("add")
  {
    match c.kind
    case None => Error
    case Some(k) => Value(k == "add")
  }

  /** `r.row('new_val')('status').eq('public').and(r.row('old_val')('status').ne('public'))`;
      `and` stops at its first false operand. */
  function ToPublicStatus(c: Change): (r: Eval)
    ensures r == Value(true) <==>
      StatusOf(c.newVal) == Some("public") && StatusOf(c.oldVal).Some? && StatusOf(c.oldVal) != Some("public")
    ensures r == Error <==>
      StatusOf(c.newVal).None? || (StatusOf(c.newVal) == Some("public") && StatusOf(c.oldVal).None?)
  {
    match StatusOf(c.newVal)
    case None => Error
    case Some(newStatus) =>
      if newStatus != "public" then Value(false)
      else match StatusOf(c.oldVal)
        case None => Error
        case Some(oldStatus) => Value(oldStatus != "public")
  }

  /** `addedItem.or(toPublicStatus)`; `or` stops at its first true operand. */
  function DocFilter(c: Change): (r: Eval)
    ensures r == Value(true) <==>
      AddedItem(c) == Value(true) || (AddedItem(c) == Value(false) && ToPublicStatus(c) == Value(true))
    ensures r == Error <==>
      AddedItem(c) == Error || (AddedItem(c) == Value(false) && ToPublicStatus(c) == Error)
  {
    match AddedItem(c)
    case Error => Error
    case Value(added) => if added then Value(true) else ToPublicStatus(c)
  }

  /** `filter` passes a row when the predicate is true; a row on which the
      predicate raises an error is skipped. */
  predicate Qualifies(c: Change) {
    DocFilter(c) == Value(true)
  }

  /** The trigger condition on a record that has every field. */
  predicate Triggers(kind: string, oldStatus: string, newStatus: string) {
    kind == "add" || (newStatus == "public" && oldStatus != "public")
  }

  /** On complete records the filter is exactly the trigger condition. */
  lemma QualifiesOnCompleteRecords(kind: string, oldStatus: string, newStatus: string)
    ensures Qualifies(Change(Some(kind), Some(Doc(Some(oldStatus))), Some(Doc(Some(newStatus)))))
        <==> Triggers(kind, oldStatus, newStatus)
  {
  }

  /** On any record: a change passes iff it is an add, or it is typed and its
      new document is public while its old document has a status other than
      "public". Missing fields make the second alternative fail. */
  lemma QualifiesCharacterised(c: Change)
    ensures Qualifies(c) <==>
      || c.kind == Some("add")
      || (c.kind.Some? && StatusOf(c.newVal) == Some("public")
          && StatusOf(c.oldVal).Some? && StatusOf(c.oldVal) != Some("public"))
  {
  }

  /** The cases a reader checks first: adds pass whatever their document;
      removals, untyped records and updates that keep a document public do not. */
  lemma FilterCases(c: Change, status: string)
    ensures c.kind == Some("add") ==> Qualifies(c)
    ensures c.kind == Some("remove") && c.newVal.None? ==> !Qualifies(c)
    ensures c.kind.None? ==> !Qualifies(c)
    ensures c.kind == Some("change") && StatusOf(c.oldVal) == Some("public") ==> !Qualifies(c)
    ensures Qualifies(Change(Some("change"), Some(Doc(Some("draft"))), Some(Doc(Some("public")))))
    ensures !Qualifies(Change(Some("change"), Some(Doc(Some("draft"))), Some(Doc(Some("draft")))))
  {
  }

  /** `_.defaults(opts, { includeTypes: true })` of `addChangesFeed`. */
  function ChangesOptions(opts: JsObject): (r: JsObject)
    ensures "includeTypes" in r
    ensures Defined(opts, "includeTypes") ==> r["includeTypes"] == opts["includeTypes"]
    ensures !Defined(opts, "includeTypes") ==> r["includeTypes"] == Bool(true)
    ensures forall k :: k in opts && k != "includeTypes" ==> k in r && r[k] == opts[k]
    ensures r.Keys == opts.Keys + {"includeTypes"}
  {
    Defaults(opts, map["includeTypes" := Bool(true)])
  }

  /** Whether the feed's records carry their `type`. */
  predicate TypesIncluded(opts: JsObject) {
    "includeTypes" in opts && opts["includeTypes"] == Bool(true)
  }

  /** A change as stored by the database, and as the feed delivers it. */
  datatype RawChange = RawChange(kind: string, oldVal: Option<Doc>, newVal: Option<Doc>)

  function Deliver(opts: JsObject, raw: RawChange): Change {
    Change(if TypesIncluded(opts) then Some(raw.kind) else None, raw.oldVal, raw.newVal)
  }

  /** With `includeTypes` left to its default every add reaches the handler;
      a caller that switches it off silences the filter entirely. */
  lemma IncludeTypesMatters(opts: JsObject, raw: RawChange)
    ensures !Defined(opts, "includeTypes") && raw.kind == "add" ==> Qualifies(Deliver(ChangesOptions(opts), raw))
    ensures "includeTypes" in opts && opts["includeTypes"] == Bool(false) ==> !Qualifies(Deliver(ChangesOptions(opts), raw))
  {
  }

  /** What `cursor.each` hands to the handler: a row, or the cursor's error.
      The handlers ignore their arguments, so an error triggers too. */
  datatype FeedItem = Row(change: Change) | CursorError(reason: string)

  /** An item reaching the handler at time `at` (rows that failed the filter
      never reach it). */
  datatype Arrival = Arrival(at: int, item: FeedItem)

  predicate Reaches(item: FeedItem) {
    item.CursorError? || Qualifies(item.change)
  }

  /** The times at which the handler runs, in arrival order. */
  function HandlerTimes(arrivals: seq<Arrival>): (times: seq<int>)
    ensures |times| <= |arrivals|
    decreases |arrivals|
  {
    if |arrivals| == 0 then []
    else (if Reaches(arrivals[0].item) then [arrivals[0].at] else []) + HandlerTimes(arrivals[1..])
  }

  /** The handler runs once per arrival that reaches it, and at no other time. */
  lemma {:induction false} HandlerTimesAppend(a: seq<Arrival>, b: seq<Arrival>)
    ensures HandlerTimes(a + b) == HandlerTimes(a) + HandlerTimes(b)
    decreases |a|
  {
    if |a| == 0 {
      assert a + b == b;
    } else {
      var head := if Reaches(a[0].item) then [a[0].at] else [];
      assert (a + b)[0] == a[0];
      assert (a + b)[1..] == a[1..] + b;
      assert HandlerTimes(a + b) == head + HandlerTimes(a[1..] + b);
      HandlerTimesAppend(a[1..], b);
      assert head + (HandlerTimes(a[1..]) + HandlerTimes(b)) == (head + HandlerTimes(a[1..])) + HandlerTimes(b);
    }
  }

  lemma {:induction false} HandlerTimesExact(arrivals: seq<Arrival>)
    ensures forall t :: t in HandlerTimes(arrivals) <==>
      exists i :: 0 <= i < |arrivals| && Reaches(arrivals[i].item) && arrivals[i].at == t
    decreases |arrivals|
  {
    if |arrivals| > 0 {
      HandlerTimesExact(arrivals[1..]);
      forall t
        ensures t in HandlerTimes(arrivals) <==>
          exists i :: 0 <= i < |arrivals| && Reaches(arrivals[i].item) && arrivals[i].at == t
      {
        if t in HandlerTimes(arrivals[1..]) {
          var j :| 0 <= j < |arrivals[1..]| && Reaches(arrivals[1..][j].item) && arrivals[1..][j].at == t;
          assert arrivals[j + 1] == arrivals[1..][j];
        }
        if exists i :: 0 <= i < |arrivals| && Reaches(arrivals[i].item) && arrivals[i].at == t {
          var i :| 0 <= i < |arrivals| && Reaches(arrivals[i].item) && arrivals[i].at == t;
          if i > 0 {
            assert arrivals[1..][i - 1] == arrivals[i];
          }
        }
      }
    }
  }

  /** `idx` lists, in increasing order, exactly the positions below `n` of
      the arrivals that reach the handler. */
  predicate PicksReachingBelow(arrivals: seq<Arrival>, n: int, idx: seq<int>)
    requires 0 <= n <= |arrivals|
  {
    && (forall j :: 0 <= j < |idx| ==> 0 <= idx[j] < n && Reaches(arrivals[idx[j]].item))
    && (forall j, k :: 0 <= j < k < |idx| ==> idx[j] < idx[k])
    && (forall i :: 0 <= i < n && Reaches(arrivals[i].item) ==> i in idx)
  }

  /** The handler runs of a single arrival. */
  lemma HandlerTimesOfOne(x: Arrival)
    ensures HandlerTimes([x]) == if Reaches(x.item) then [x.at] else []
  {
    assert [x][1..] == [];
  }

  /** Extending the picked positions by one arrival. */
  lemma PicksOneMore(arrivals: seq<Arrival>, n: int, idx: seq<int>, reaches: bool)
    requires 0 <= n < |arrivals| && reaches == Reaches(arrivals[n].item)
    requires PicksReachingBelow(arrivals, n, idx)
    ensures PicksReachingBelow(arrivals, n + 1, if reaches then idx + [n] else idx)
  {
    var next := if reaches then idx + [n] else idx;
    forall j | 0 <= j < |next|
      ensures 0 <= next[j] < n + 1 && Reaches(arrivals[next[j]].item)
    {
      if j < |idx| {
        assert next[j] == idx[j];
      }
    }
    forall j, k | 0 <= j < k < |next|
      ensures next[j] < next[k]
    {
      assert next[j] == idx[j];
      if k == |idx| {
        assert next[k] == n;
      } else {
        assert next[k] == idx[k];
      }
    }
    forall i | 0 <= i < n + 1 && Reaches(arrivals[i].item)
      ensures i in next
    {
      if i == n {
        assert next[|idx|] == n;
      } else {
        var j :| 0 <= j < |idx| && idx[j] == i;
        assert next[j] == i;
      }
    }
  }

  /** The handler runs of the first `n + 1` arrivals. */
  lemma HandlerTimesOneMore(arrivals: seq<Arrival>, n: int)
    requires 0 <= n < |arrivals|
    ensures HandlerTimes(arrivals[..n + 1])
         == HandlerTimes(arrivals[..n]) + (if Reaches(arrivals[n].item) then [arrivals[n].at] else [])
  {
    assert arrivals[..n + 1] == arrivals[..n] + [arrivals[n]];
    HandlerTimesAppend(arrivals[..n], [arrivals[n]]);
    HandlerTimesOfOne(arrivals[n]);
  }

  /** The runs of the first `n` arrivals are those at the picked positions. */
  predicate TimesAtPicks(arrivals: seq<Arrival>, n: int, idx: seq<int>)
    requires 0 <= n <= |arrivals|
    requires forall j :: 0 <= j < |idx| ==> 0 <= idx[j] < |arrivals|
  {
    |HandlerTimes(arrivals[..n])| == |idx| &&
    forall j :: 0 <= j < |idx| ==> HandlerTimes(arrivals[..n])[j] == arrivals[idx[j]].at
  }

  /** Extending the runs by one arrival. */
  lemma TimesOneMore(arrivals: seq<Arrival>, n: int, idx: seq<int>, reaches: bool)
    requires 0 <= n < |arrivals| && reaches == Reaches(arrivals[n].item)
    requires forall j :: 0 <= j < |idx| ==> 0 <= idx[j] < |arrivals|
    requires TimesAtPicks(arrivals, n, idx)
    ensures TimesAtPicks(arrivals, n + 1, if reaches then idx + [n] else idx)
  {
    HandlerTimesOneMore(arrivals, n);
  }

  /** All arrivals taken. */
  lemma TimesAtAllPicks(arrivals: seq<Arrival>, idx: seq<int>)
    requires forall j :: 0 <= j < |idx| ==> 0 <= idx[j] < |arrivals|
    requires TimesAtPicks(arrivals, |arrivals|, idx)
    ensures |HandlerTimes(arrivals)| == |idx|
    ensures forall j :: 0 <= j < |idx| ==> HandlerTimes(arrivals)[j] == arrivals[idx[j]].at
  {
    assert arrivals[..|arrivals|] == arrivals;
  }

  /** One handler run per arrival that reaches it, in arrival order: the
      runs correspond one to one to the reaching positions, so two changes
      that arrive in the same millisecond give two runs. */
  lemma HandlerTimesPerArrival(arrivals: seq<Arrival>) returns (idx: seq<int>)
    ensures PicksReachingBelow(arrivals, |arrivals|, idx)
    ensures |HandlerTimes(arrivals)| == |idx|
    ensures forall j :: 0 <= j < |idx| ==> HandlerTimes(arrivals)[j] == arrivals[idx[j]].at
  {
    idx := [];
    var n := 0;
    while n < |arrivals|
      invariant 0 <= n <= |arrivals|
      invariant PicksReachingBelow(arrivals, n, idx)
      invariant TimesAtPicks(arrivals, n, idx)
    {
      var reaches := Reaches(arrivals[n].item);
      PicksOneMore(arrivals, n, idx, reaches);
      TimesOneMore(arrivals, n, idx, reaches);
      idx := if reaches then idx + [n] else idx;
      n := n + 1;
    }
    TimesAtAllPicks(arrivals, idx);
  }

  /** db.js and dump.js: each handler run calls `requestDump(DUMP_DELAY_MS)` once. */
  function DumpRequests(arrivals: seq<Arrival>, delay: int): (events: seq<Event>)
    ensures |events| == |HandlerTimes(arrivals)|
    ensures forall i :: 0 <= i < |events| ==> events[i] == Request(HandlerTimes(arrivals)[i], delay)
  {
    var times := HandlerTimes(arrivals);
    seq(|times|, i requires 0 <= i < |times| => Request(times[i], delay))
  }

  /** A burst of qualifying changes from the idle scheduler arms one timer,
      set by the first handler run, announcing `dumpTime` `delay` after it
      and due when `setTimeout` runs it; the other requests are dropped. */
  lemma FeedBurstArmsOnce(v: Variant, dep: Deployment, arrivals: seq<Arrival>, delay: int)
    requires |HandlerTimes(arrivals)| > 0
    requires ValidTime(HandlerTimes(arrivals)[0]) && ValidTime(HandlerTimes(arrivals)[0] + delay)
    ensures var t0 := HandlerTimes(arrivals)[0];
      Run(v, dep, Init, DumpRequests(arrivals, delay))
        == (State(true, Some(t0 + delay), [Timer(t0, delay)], 0),
            [Armed(t0 + TimerDelay(delay))] + seq(|HandlerTimes(arrivals)| - 1, _ => Dropped))
  {
    var events := DumpRequests(arrivals, delay);
    var t0 := HandlerTimes(arrivals)[0];
    assert events == [Request(t0, delay)] + events[1..];
    InitInv();
    BurstCoalesces(v, dep, Init, t0, delay, events[1..]);
  }

  /** How the awaits of one direct run settle: the archive name, the dump
      command and the sync request. */
  datatype RunOutcome = RunOutcome(stamp: Outcome<string>, exec: ExecResult, fetched: Rclone.FetchResult)

  /** backup.js: each handler run calls `backup(delay)`; with a delay the
      call is the scheduler request, with delay 0 a direct dump whose awaits
      settle as `outcomes` says. Returns the scheduler state, the scheduler
      effects and the direct runs. */
  function BackupFeed(dep: Deployment, s: State, times: seq<int>, outcomes: seq<RunOutcome>, delay: int)
    : (r: (State, seq<Effect>, seq<DirectRun>))
    requires |outcomes| == |times|
    ensures delay == 0 ==> r.0 == s && r.1 == seq(|times|, _ => Nothing) && |r.2| == |times|
    ensures delay == 0 ==> forall i :: 0 <= i < |times| ==>
      r.2[i] == DirectBackup(dep.dump, dep.sync, outcomes[i].stamp, outcomes[i].exec, outcomes[i].fetched)
    ensures delay != 0 ==> r.2 == []
    decreases |times|
  {
    if |times| == 0 then
      assert seq(|times|, _ => Nothing) == [];
      (s, [], [])
    else
      var o := outcomes[0];
      var call := Backup(dep, s, times[0], delay, o.stamp, o.exec, o.fetched);
      var rest := BackupFeed(dep, call.state, times[1..], outcomes[1..], delay);
      assert delay == 0 ==> [Nothing] + seq(|times| - 1, _ => Nothing) == seq(|times|, _ => Nothing);
      (rest.0, [call.effect] + rest.1, (if call.direct.Some? then [call.direct.value] else []) + rest.2)
  }

  /** With a non-zero delay the backup.js feed drives the scheduler exactly
      like a sequence of requests, whatever the outcomes. */
  lemma {:induction false} BackupFeedIsRequests(dep: Deployment, s: State, times: seq<int>, outcomes: seq<RunOutcome>, delay: int)
    requires |outcomes| == |times|
    requires delay != 0
    ensures var r := Run(Swallowing, dep, s, seq(|times|, i requires 0 <= i < |times| => Request(times[i], delay)));
      BackupFeed(dep, s, times, outcomes, delay) == (r.0, r.1, [])
    decreases |times|
  {
    var events := seq(|times|, i requires 0 <= i < |times| => Request(times[i], delay));
    if |times| > 0 {
      var next := Step(Swallowing, dep, s, Request(times[0], delay)).0;
      BackupFeedIsRequests(dep, next, times[1..], outcomes[1..], delay);
      assert events[0] == Request(times[0], delay);
      assert events[1..] == seq(|times[1..]|, i requires 0 <= i < |times[1..]| => Request(times[1..][i], delay));
    }
  }
}
